=== FILE: README.md ===
# X-Matches in Dafny

A model of the two server packages of X-Matches, a small web application for
recording a team's sports matches:

- **auth**: user accounts, bcrypt-hashed passwords, session tokens carried in the
  `session_token` cookie, the `AuthRequired` and `AdminRequired` middleware, and the admin
  routes that list users, reset passwords and set the admin flag
  (`internal/auth/repository.go`, `internal/auth/http.go`).
- **matches**: the CRUD routes over the `matches` table and the conversions between the
  API record and the nullable database row (`internal/matches/http.go`,
  `internal/matches/repository.go`), and the CSV/XLSX importer with its Swedish column aliases
  (`internal/matches/import.go`).

Each table becomes a map inside an immutable store. Each repository call becomes a pure
function from the store to the new store and the call's result. Each route becomes a pure
function to the status code, body, new store and cookie it produces. The clock, the
environment, randomness, bcrypt, the time zone and the file readers are parameters.

Modules:

- `Wrappers`: `Option` and `Result`.
- `Text`: the `strings` functions the code uses.
- `Strconv`: `ParseInt` and `FormatInt`.
- `Hex`: hex encoding of tokens.
- `Ids`: id-ordered listing.
- `AuthStore`, `AuthConfig` and `AuthHttp`: the auth package.
- `MatchModel`, `MatchRepository`, `MatchHttp` and `MatchImport`: the matches package.

The repository's own handler tests (`internal/auth/http_test.go:405-539`) expect two admin rules
that the handlers do not implement. The model follows the handlers:

- `TestAdmin_CannotDemoteSelfIfLastAdmin` expects `PATCH /api/admin/users/:id/admin` to refuse
  demoting the last admin with 400. The handler never consults `CountOtherAdmins` and sets the
  flag of any positive id. `AuthHttp.PatchAdmin` models it that way, and
  `AuthHttp.PatchAdminCanRemoveLastAdmin` states the consequence.
- `TestAdmin_DeleteUser_Flow` and `TestAdmin_CannotDeleteSelf` call `DELETE /api/admin/users/:id`.
  `RegisterAdminRoutes` registers no such route, so the model has none. The repository's
  `DeleteUser` is modelled.

## Model

| member | source | states |
|---|---|---|
| AuthConfig.TtlFromEnv | internal/auth/http.go:18-23 | the session lifetime is always positive; it is SESSION_TTL's parsed duration when that parses to a positive value and 30 days otherwise |
| AuthConfig.CookieSecure | internal/auth/http.go:26-32 | Secure is on when COOKIE_SECURE is unset; otherwise it is on exactly when the lower-cased value is 1, true or yes |
| AuthConfig.CookieSecureCaseInsensitive | internal/auth/http.go:27-28 | COOKIE_SECURE is read case-insensitively |
| AuthConfig.CookieSecureOffOnlyExplicitly | internal/auth/http.go:26-32 | the flag is off only when COOKIE_SECURE is set to something outside 1/true/yes |
| AuthConfig.AnyEntryIs | internal/auth/http.go:145-147 | the scan of the allow-list finds a match exactly when some entry normalises to the email |
| AuthConfig.IsAdminEmail | internal/auth/http.go:142-149 | an email is allow-listed exactly when its trimmed lower-case form is non-empty and equals some trimmed lower-case entry of the comma-separated ADMIN_EMAILS |
| AuthConfig.NormEmailIdempotent | internal/auth/http.go:144 | trimming and lower-casing an email twice is the same as doing it once |
| AuthConfig.IsAdminEmailNormalised | internal/auth/http.go:142-149 | the allow-list check ignores the case and surrounding white space of the email |
| AuthConfig.IsAdminEmailListed | internal/auth/http.go:143-147 | for ADMIN_EMAILS built by joining comma-free entries, each entry is an admin email exactly when it normalises to a non-empty string |
| AuthStore.CreateUser | internal/auth/repository.go:27-54 | inserting fails with the unique-constraint error, leaving the store unchanged, exactly when the email is taken; otherwise it adds one user with a fresh id, and that user is an admin exactly when the table was empty; the store invariant is kept |
| AuthStore.GetUserByID | internal/auth/repository.go:67-76 | finds the user with that id, or fails with no-rows exactly when there is none |
| AuthStore.ListUsers | internal/auth/repository.go:138-154 | lists every stored user exactly once, in strictly increasing id order |
| AuthStore.GetUserByEmail | internal/auth/repository.go:56-65 | on a valid store, succeeds exactly when some user has the email and returns that stored user; otherwise fails with no-rows |
| AuthStore.SetPasswordHash | internal/auth/repository.go:156-159 | replaces only the hash of the given user; an unknown id changes nothing |
| AuthStore.SetAdmin | internal/auth/repository.go:161-168 | replaces only the admin flag of the given user; an unknown id changes nothing |
| AuthStore.UpdateEmail | internal/auth/repository.go:191-194 | fails on the unique index exactly when another user has the email; otherwise changes only that user's email |
| AuthStore.DeleteUser | internal/auth/repository.go:170-183 | removes the user and exactly the sessions bound to that user; everything else is unchanged |
| AuthStore.CountOtherAdmins | internal/auth/repository.go:185-189 | the count is zero exactly when no flagged admin other than the excluded id exists, and it never exceeds the number of admins |
| AuthStore.NewToken | internal/auth/repository.go:86-92 | a token is 64 lower-case hex characters that decode back to the 32 random bytes; a failing random source is an error |
| AuthStore.CreateSession | internal/auth/repository.go:94-109 | a new session binds a fresh token to the user, expiring ttl after now; the insert fails only on a token collision or missing entropy, and then the store is unchanged |
| AuthStore.DeleteSession | internal/auth/repository.go:111-114 | removes exactly the session with that token |
| AuthStore.Sweep | internal/auth/repository.go:119-122 | keeps exactly the sessions whose expiry is not before now |
| AuthStore.GetUserBySession | internal/auth/repository.go:116-133 | resolves a token exactly when its session is unexpired and its user exists, returning that user; otherwise fails with no-rows; a failed sweep is ignored |
| AuthStore.IsEmailReserved | internal/auth/repository.go:197-209 | reports whether the email has a reservation row and who reserved it |
| AuthStore.ReserveEmail | internal/auth/repository.go:211-219 | inserts a reservation only when the email has none, so an existing one is kept |
| AuthStore.CreateUserAdmins | internal/auth/repository.go:38-41 | the first user becomes the only admin; a later user adds no admin |
| AuthStore.CreateUserTwiceConflicts | internal/auth/repository.go:27-54 | creating the same email twice makes the second call a unique-constraint failure that changes nothing |
| AuthStore.CountOtherAdminsAfterDemotion | internal/auth/repository.go:161-189 | after demoting x, the admins are exactly the old admins minus x, and their number is CountOtherAdmins(x) |
| AuthStore.DeleteSessionIdempotent | internal/auth/repository.go:111-114 | deleting a session twice is the same as deleting it once |
| AuthStore.DeleteUserRevokes | internal/auth/repository.go:170-183 | after deleting a user, no token resolves to that user and their email no longer looks up |
| AuthStore.SessionLifetime | internal/auth/repository.go:94-133 | a new session resolves to its user at every time before now + ttl and at no time from then on |
| AuthStore.ExpiringNowKeptButDead | internal/auth/repository.go:119-127 | a session expiring exactly at now survives the sweep yet does not resolve |
| AuthStore.DeletedTokenNeverResolves | internal/auth/repository.go:111-133 | a deleted token never resolves |
| AuthStore.ReserveEmailFirstWins | internal/auth/repository.go:211-219 | the first reservation of an email wins, and repeating it is a no-op |
| Hex.Encode | internal/auth/repository.go:91 | the encoding is two lower-case hex digits per byte |
| Hex.DecodeEncode | internal/auth/repository.go:91 | decoding an encoded byte string gives the bytes back |
| Hex.EncodeInjective | internal/auth/repository.go:86-92 | distinct random bytes give distinct tokens |
| AuthHttp.InsertFailure | internal/auth/http.go:56-61 | a failed insert answers 409 exactly when the lower-cased error text contains "unique", and 500 otherwise |
| AuthHttp.Register | internal/auth/http.go:38-63 | answers 201, 400, 409 or 500; only a 201 changes the store; a 201 requires a non-empty normalised email containing '@', a password of at least 12 bytes and a successful hash, and its store and body are those of the user CreateUser inserted; an unbound body is the 400 "invalid json" and a hash failure on an otherwise valid request the 500 "hash failed", both with the store unchanged |
| AuthHttp.Login | internal/auth/http.go:65-87 | 400 exactly when the body does not bind or the normalised email or the password is empty; 401 exactly when the email is unknown or the password does not verify; 500 exactly when creating the session fails; only a 200 changes the store or sets the session cookie; login never changes the users |
| AuthHttp.StartSession | internal/auth/http.go:80-85 | 500 exactly when creating the session fails, with the store untouched; otherwise 200 with the session cookie; the users never change |
| AuthHttp.Logout | internal/auth/http.go:89-96 | always answers 200 with an expired session cookie; it deletes the cookie's session when the cookie is non-empty and changes nothing otherwise |
| AuthHttp.CurrentUser | internal/auth/http.go:106-112 | yields a user exactly when a non-empty cookie names a live session, and that user is the session's |
| AuthHttp.Me | internal/auth/http.go:98-102 | answers 200 exactly when there is a current user, reporting is_admin as the stored flag or allow-list membership; otherwise 401 |
| AuthHttp.AuthRequiredGate | internal/auth/http.go:115-125 | passes exactly when a non-empty cookie resolves; a lookup error other than no-rows is a 500 and everything else a 401 |
| AuthHttp.AdminRequiredGate | internal/auth/http.go:128-140 | every cookie or lookup failure is a 401; a resolved user who is neither flagged nor allow-listed is a 403; the gate passes exactly for flagged or allow-listed users |
| AuthHttp.AuthRequired | internal/auth/http.go:115-125 | against the store, passes exactly when a non-empty cookie names a live session, and otherwise answers 401 |
| AuthHttp.AdminRequired | internal/auth/http.go:128-140 | against the store, passes exactly when a non-empty cookie names a live session whose user is flagged or allow-listed |
| AuthHttp.AdminGuarded | internal/auth/http.go:152-154 | a request the admin gate stops answers 401 or 403 and leaves the users unchanged; a request it lets through gets exactly the route's response on the store the gate's lookup left |
| AuthHttp.ListUsersRoute | internal/auth/http.go:156-165 | answers 200 with every user in id order, each shown as id, email, admin flag and creation time and never with the password hash |
| AuthHttp.ResetPassword | internal/auth/http.go:167-180 | answers 200 exactly when the body binds, the password has at least 12 bytes, the id is positive and hashing succeeds, and then sets that hash; 500 exactly when hashing fails on an otherwise valid request; a long enough password with a non-positive id is the 400 "invalid id"; only a 200 changes the store |
| AuthHttp.PatchAdmin | internal/auth/http.go:182-192 | answers 200 exactly for a valid body and a positive id, setting that user's flag; a 400 changes nothing |
| AuthHttp.RegisterRejectsInvalidEmail | internal/auth/http.go:46-47 | a blank or @-less normalised email is a 400 that changes nothing |
| AuthHttp.RegisterRejectsShortPassword | internal/auth/http.go:48 | a valid email with a password under 12 bytes is a 400 that changes nothing |
| AuthHttp.ResetPasswordSucceeds | internal/auth/http.go:174-179 | a valid reset of an existing user answers 200 and leaves a hash that verifies the new password, with the sessions untouched |
| AuthHttp.ResetRejectsShortPasswordFirst | internal/auth/http.go:170-174 | a short password is rejected before the id is looked at |
| AuthHttp.RegisterStoresNormalisedUser | internal/auth/http.go:46-62 | a successful registration stores the normalised email under a new id, with a hash that verifies the password, and the user is an admin exactly when the table was empty |
| AuthHttp.UniqueErrorIsConflict | internal/auth/http.go:57-58 | a worked example, not a general property: SQLite's duplicate-email text "UNIQUE constraint failed: users.email" is recognised as a unique violation, which RegisterDuplicateConflicts relies on |
| AuthHttp.RegisterDuplicateConflicts | internal/auth/http.go:55-59 | registering a taken email is a 409 "email already in use" that changes nothing |
| AuthHttp.LoginUnknownEmail | internal/auth/http.go:74-75 | an unknown email gets the same 401 as a wrong password, and nothing changes |
| AuthHttp.LoginWrongPassword | internal/auth/http.go:76-78 | a wrong password for a known email gets the same 401, and nothing changes |
| AuthHttp.LookupFindsUser | internal/auth/repository.go:56-65 | with unique emails, looking up a stored user's email returns exactly that user |
| AuthHttp.LoginSucceeds | internal/auth/http.go:80-86 | the right password and fresh entropy give a 200; the new session expires one TTL from now, and the HttpOnly cookie carries its token with Max-Age equal to the TTL |
| AuthHttp.GatesDifferOnDbFailure | internal/auth/http.go:115-133 | on a database error other than no-rows, AuthRequired answers 500 and AdminRequired answers 401 |
| AuthHttp.AdminGateImpliesAuthGate | internal/auth/http.go:115-140 | whatever the lookup, a request AdminRequired passes also passes AuthRequired |
| AuthHttp.MeAgreesWithAdminGate | internal/auth/http.go:98-140 | /me reports is_admin exactly for the requests AdminRequired lets through, and it answers 401 exactly when the admin gate answers 401 |
| AuthHttp.PatchAdminCanRemoveLastAdmin | internal/auth/http.go:182-192 | demoting the only flagged admin succeeds and leaves no flagged admin |
| AuthHttp.NonAdminIsForbidden | internal/auth/http.go:128-140 | a logged-in user who is neither flagged nor allow-listed gets 403 from every admin route, and the users are unchanged |
| AuthHttp.RegisterFresh | internal/auth/http.go:38-63 | a valid registration of a free email is a 201 whose store is CreateUser's |
| AuthHttp.MeWhileLive | internal/auth/http.go:98-112 | while its session is live, a cookie makes /me answer 200 with the session user's email |
| AuthHttp.MeAfterLogout | internal/auth/http.go:89-112 | after logout with a cookie, /me with that cookie is a 401 |
| AuthHttp.SessionScenario | internal/auth/http.go:38-102 | the sequence register → login → /me → logout → /me gives 201, 200 with the cookie, 200 with the normalised email, 200, and then 401 |
| MatchModel.Pstr | internal/matches/repository.go:35-41 | stores NULL exactly for the empty string |
| MatchModel.PstrKeep | internal/matches/repository.go:43-48 | a non-empty new value replaces the column, and an empty one keeps it |
| MatchModel.PPlayed | internal/matches/repository.go:50-56 | played is never NULL; it is 1 for played and 0 otherwise |
| MatchModel.PI64ZeroNil | internal/matches/repository.go:58-64 | stores NULL exactly for zero |
| MatchModel.Sval | internal/matches/http.go:13-18 | reads "" exactly for NULL or an empty column |
| MatchModel.Ival | internal/matches/http.go:20-25 | reads 0 exactly for NULL or a zero column |
| MatchModel.Bval | internal/matches/http.go:27-29 | a match is played exactly when the column is non-NULL and non-zero |
| MatchModel.StoreReadRoundTrip | internal/matches/repository.go:35-64 | every plain string, count and flag survives being stored and read back |
| MatchModel.ReadStoreRoundTrip | internal/matches/http.go:13-29 | re-storing a read column gives it back exactly when it is not "" or 0, the two values the write helpers never produce |
| MatchModel.PstrKeepNeverClears | internal/matches/repository.go:43-48 | pstrKeep never turns a stored value into NULL |
| MatchRepository.ParseLocalISO | internal/matches/repository.go:19-33 | there is no time when both parts are empty; otherwise the result is the zoned reading of "date time", using 00:00 when the time is missing |
| MatchRepository.ParseLocalISOMidnight | internal/matches/repository.go:23-25 | a date alone is read at midnight |
| MatchRepository.NewRow | internal/matches/repository.go:87-111 | every text field is stored through pstr, played through pPlayed and the goals through pI64ZeroNil; the times are the derived start and end |
| MatchRepository.CreateStartRules | internal/matches/repository.go:78-85 | an explicit start time is kept, and none is derived from an empty date and time; an end time is derived only from a date and an end time |
| MatchRepository.Create | internal/matches/repository.go:76-113 | inserts the new row under the next id, leaving the other rows as they were, and keeps the table invariant |
| MatchRepository.Get | internal/matches/repository.go:72-74 | finds the row with that id, or fails exactly when there is none |
| MatchRepository.List | internal/matches/repository.go:68-70 | lists every stored row exactly once, in increasing id order |
| MatchRepository.MergeText | internal/matches/repository.go:121-140 | each text column is the request's value when that is non-empty, and otherwise the stored one |
| MatchRepository.Merge | internal/matches/repository.go:115-162 | the merged row keeps its id, merges the text, can only set played, and keeps each goal count when the request carries 0; the start time is recomputed from the merged date and time when the request names a date or time, and the end time from the merged date and end time when it names a date or end time; otherwise each stored time is kept |
| MatchRepository.Update | internal/matches/repository.go:115-190 | fails with "get: sql: no rows in result set", writing nothing, exactly when the id is unknown; otherwise it stores and returns the merged row and keeps the table invariant |
| MatchRepository.Delete | internal/matches/repository.go:192-194 | removes exactly the row with that id; a missing id is not an error |
| MatchRepository.UpdateNeverClears | internal/matches/repository.go:121-140 | a stored text column is never cleared; it changes only to a non-empty request value |
| MatchRepository.UpdatePlayedMonotone | internal/matches/repository.go:144-146 | after an update a match is played exactly when it was played before or the request says played |
| MatchRepository.UpdateGoalsIndependent | internal/matches/repository.go:147-152 | each goal count is replaced only by a non-zero request value, independently of the other |
| MatchRepository.UpdateIgnoresRequestTimes | internal/matches/repository.go:154-162 | the request's own id and times are ignored; the stored times change only when the request names a date or a start/end time |
| MatchRepository.UpdateRecomputesStart | internal/matches/repository.go:157-159 | when the request names a date or time, the start time is recomputed from the merged date and time |
| MatchRepository.UpdateRecomputesEnd | internal/matches/repository.go:160-162 | when the request names a date or end time, the end time is recomputed from the merged date and end time |
| MatchRepository.UpdateBlankIsNoop | internal/matches/repository.go:115-190 | an update with an empty record leaves the table and the row unchanged |
| MatchRepository.UpdateIdempotent | internal/matches/repository.go:115-190 | applying the same update twice is the same as applying it once |
| MatchRepository.UpdateAfterDelete | internal/matches/repository.go:115-119 | an update after delete fails and changes nothing |
| MatchRepository.CreateThenGet | internal/matches/repository.go:72-113 | a created row is found under its new id, and every older row reads as before |
| MatchHttp.ToAPI | internal/matches/http.go:31-58 | id and times are copied; every NULL text column reads "", NULL goals read 0, and played follows bval |
| MatchHttp.ToAPIList | internal/matches/http.go:60-66 | converts element-wise, keeping length and order |
| MatchHttp.ToDomain | internal/matches/http.go:96-140 | absent fields become "", false and 0; the times are passed through; the id is 0 |
| MatchHttp.RouteId | internal/matches/http.go:157 | the path id is always an int64 and equals the decimal value of a well-formed segment, saturated to the int64 range |
| MatchHttp.ListRoute | internal/matches/http.go:147-154 | answers 200 with every match in id order |
| MatchHttp.GetRoute | internal/matches/http.go:156-164 | answers 200 with the row exactly when the id exists, and 404 "not found" otherwise |
| MatchHttp.CreateRoute | internal/matches/http.go:166-178 | bad JSON is a 400 that changes nothing; otherwise a 201 with the inserted row |
| MatchHttp.PatchRoute | internal/matches/http.go:180-193 | answers 200, 400 or 500; the 500 comes exactly when valid JSON names an unknown id and the 200 exactly when it names an existing one; only a 200 changes the table, and it returns the merged row |
| MatchHttp.DeleteRoute | internal/matches/http.go:195-202 | always answers 204 and removes the row if present |
| MatchHttp.ToAPINewRow | internal/matches/http.go:31-58 | reading back a freshly created row gives the posted match with its new id and times |
| MatchHttp.ToDomainEmpty | internal/matches/http.go:96-140 | the body {} becomes the zero match |
| MatchHttp.CreateThenGetRoute | internal/matches/http.go:156-178 | after POST, GET of the returned id, written in decimal, serves exactly the posted match |
| MatchHttp.PatchEmptyIsNoop | internal/matches/http.go:180-193 | PATCH with {} on an existing id answers 200 with the row and changes nothing |
| MatchHttp.PatchUnknownIs500 | internal/matches/http.go:187-190 | PATCH of an unknown id is a 500, not a 404, and changes nothing |
| MatchHttp.DeleteThenGone | internal/matches/http.go:156-202 | after DELETE, GET of the same path is a 404 and PATCH is a 500 |
| MatchHttp.MalformedIdNotFound | internal/matches/http.go:156-162 | a non-numeric id reads as 0, which no match has, so GET is a 404 |
| Strconv.ParseInt | internal/matches/http.go:157 | a well-formed decimal gives its value saturated to int64, with a range error exactly when it was saturated; anything else is an error, and a syntax error comes with 0 |
| Strconv.ParseFormat | internal/matches/http.go:157 | ParseInt undoes FormatInt on the whole int64 range |
| Strconv.OverflowHidesTrailingText | internal/matches/import.go:133 | a run of digits too large for 64 bits reads as MaxInt64, whatever text follows it |
| MatchImport.KeepAndFold | internal/matches/import.go:88-99 | keeps only letters and digits and folds å, ä and ö; lower-case input gives a plain key, and a plain key is unchanged |
| MatchImport.Alias | internal/matches/import.go:100-122 | a key is either kept or renamed to one of the field keys, and every field key is kept |
| MatchImport.TargetsArePlain | internal/matches/import.go:101-122 | every alias target consists of lower-case letters only |
| MatchImport.NormHeader | internal/matches/import.go:86-123 | a normalised key is plain and is fixed by the alias table |
| MatchImport.NormHeaderIdempotent | internal/matches/import.go:83-126 | normalising a key again changes nothing |
| MatchImport.NormHeaderTavling | internal/matches/import.go:86-107 | "Tävling" is the league column |
| MatchImport.NormHeaderDatum | internal/matches/import.go:86-102 | the title "Datum" followed by a space and a pipe is the date column |
| MatchImport.NormHeaderMalBorta | internal/matches/import.go:86-114 | "Mål borta" is the goals-against column |
| MatchImport.NormHeaders | internal/matches/import.go:83-126 | there is one key per column index, the normalised title |
| MatchImport.ColumnIndex | internal/matches/import.go:129-132 | finds the lowest in-row column with the key, or reports that none has it |
| MatchImport.Cell | internal/matches/import.go:129-132 | returns "" when no in-row column has the key; otherwise the trimmed cell of a column with that key; the result is always trimmed |
| MatchImport.CellUnique | internal/matches/import.go:129-132 | with exactly one column keyed `key`, get reads that column |
| MatchImport.Atoi | internal/matches/import.go:133 | "" reads 0; a well-formed number reads as its value saturated to int64; a syntax error reads 0 |
| MatchImport.Atob | internal/matches/import.go:134-137 | yes exactly when the trimmed, lower-cased text is 1, true, ja, yes or y |
| MatchImport.AtobNormalised | internal/matches/import.go:134-137 | atob ignores case and surrounding white space |
| MatchImport.VenueOf | internal/matches/import.go:138-143 | the venue is the trimmed text before the first comma, or the whole cell when there is no comma |
| MatchImport.CityOf | internal/matches/import.go:168-174 | an explicit city wins; otherwise the city is the trimmed text after the venue's first comma |
| MatchImport.Sides | internal/matches/import.go:175-193 | when our team names the home side the pair is (home, away); when it names the away side, (away, home); otherwise empty team and opponent cells fall back to home and away |
| MatchImport.SidesFollowOurTeam | internal/matches/import.go:180-184 | our team comes first whichever side it plays on, and the team and opponent cells are ignored |
| MatchImport.ResultGoals | internal/matches/import.go:194-203 | a result with a dash gives the numbers around the first dash when one of them is positive; no dash or no positive side gives no result |
| MatchImport.ResultGoalsOfScore | internal/matches/import.go:195-203 | "x-y" written in decimal reads back as (x, y), except that "0-0" reads as no result |
| MatchImport.ZeroZeroKeepsPlayed | internal/matches/import.go:161-203 | a "0-0" result leaves played as the played column gave it |
| MatchImport.RowToMatch | internal/matches/import.go:128-208 | one data row becomes a match with id 0 and no gathering fields, the venue and city split at the venue cell's first comma, and the sides placed by ourTeam, each read through its header key; the remaining fields are stated by ReadCells and CellsToMatch, whose composition it is |
| MatchImport.ReadCells | internal/matches/import.go:129-132 | every value rowToMatch uses is the cell `get` returns for its own header key |
| MatchImport.CellsToMatch | internal/matches/import.go:144-207 | the text columns are copied as read; venue, city and sides follow the rules above; a result overrides played and the goals; the start and end times come from the ISO columns when non-empty; the id and gathering fields stay empty |
| MatchImport.RowToMatchColumns | internal/matches/import.go:145-163 | in the match of a row, league, weekday, match number, dates, times, teams, court, referees and notes are the trimmed cells under their keys |
| MatchImport.NonBlank | internal/matches/import.go:55-58 | keeps every non-blank row and no blank one; with no blank rows the input is returned unchanged |
| MatchImport.NonBlankAppend | internal/matches/import.go:55-58 | filtering a concatenation is the concatenation of the filtered parts, so the kept rows stay in input order |
| MatchImport.NonBlankSnoc | internal/matches/import.go:55-58 | a row added at the end is kept exactly when it is not blank, after the rows kept before it |
| MatchImport.NonBlankLength | internal/matches/import.go:55-58 | the number of rows kept equals the number of non-blank rows, counted independently |
| MatchImport.VenueCitySplit | internal/matches/import.go:138-143 | a cell "v, c" with trimmed non-empty v and c and no comma in v gives venue v and, without a city column, city c |
| MatchImport.SemicolonHeader | internal/matches/import.go:42-49 | a first line of at least two comma-free cells joined by ';' selects ';' as the delimiter |
| MatchImport.MapRows | internal/matches/import.go:54-58 | gives one match per row, in order |
| MatchImport.FirstLine | internal/matches/import.go:42 | the first line is the text up to and including the first newline, or all of it |
| MatchImport.Delimiter | internal/matches/import.go:47-49 | the delimiter is ';' exactly when the first line has more semicolons than commas, and ',' otherwise |
| MatchImport.ParseCSV | internal/matches/import.go:39-60 | a reader error propagates; no rows is "empty csv"; any non-empty successful read succeeds, with row 0 naming the columns and every non-blank data row becoming a match |
| MatchImport.ParseCSVLength | internal/matches/import.go:50-58 | every non-empty successful read parses, and the result has exactly as many matches as there are non-blank data rows |
| MatchImport.BlankRowSkipped | internal/matches/import.go:56 | appending a blank row leaves the CSV result unchanged |
| MatchImport.ParseXLSX | internal/matches/import.go:62-78 | an empty sheet fails with "empty sheet"; otherwise every data row, blank or not, becomes a match |
| MatchImport.CsvAgreesWithXlsx | internal/matches/import.go:39-78 | on a non-empty sheet without blank data rows, the CSV and XLSX front ends agree |
| MatchImport.Ext | internal/matches/import.go:20 | the extension is empty or a '.'-led suffix of the last path element with no further dot, and it is empty when the name has no dot |
| MatchImport.ParseImport | internal/matches/import.go:19-37 | an open error comes first; a lower-cased ".csv" goes to the CSV reader and ".xlsx" to the XLSX reader; anything else is "unsupported file type: " + ext |
| MatchImport.CsvExtensionCaseInsensitive | internal/matches/import.go:20-27 | "name.CSV" in any letter case is read as CSV |
| Text.TrimSpace | internal/auth/http.go:46 | the result has no leading or trailing white space and is empty exactly when the input is all white space |
| Text.TrimSpaceIdempotent | internal/auth/http.go:46 | trimming twice is the same as trimming once |
| Text.ToLower | internal/auth/http.go:46 | lower-cases character by character and keeps the length |
| Text.TrimLowerCommute | internal/auth/http.go:144 | trimming then lower-casing equals lower-casing then trimming, so register's and isAdminEmail's normalisations agree |
| Text.Split | internal/auth/http.go:143 | splitting gives at least one part, and no part contains the separator |
| Text.JoinSplit | internal/auth/http.go:143 | joining the parts of a split with the separator rebuilds the text |
| Text.SplitJoin | internal/auth/http.go:143 | splitting the join of separator-free parts gives those parts back |
| Text.Count | internal/matches/import.go:47 | counts the occurrences of a character |
| Text.Utf8Len | internal/auth/http.go:48 | the byte length is at least the character count, and equal to it for ASCII |
| Text.SplitFirst | internal/matches/import.go:140 | splitting at the first separator gives the text before it, which contains no separator, and the text after it |
| Text.ConcatAllSpace | internal/matches/import.go:56 | a row's joined cells are all white space exactly when every cell is |

## Left out

- SQL, the gorm/goose migrations, `internal/matches/repo.go`, `internal/db` and `main.go` are not part of this model. The tables are maps, and each repository call is one atomic step.
- Database failures are not modelled beyond unique-constraint violations, no-rows, a failed random source and an ignored failed sweep. Connection, BEGIN or COMMIT errors and their 500 answers are absent, and so are the 500 branches of the match routes.
- gin and JSON binding are reduced to an `Option` request: `None` stands for a body that does not bind. Cookies are an `Option<String>`.
- bcrypt is an abstract `Hasher`, with `Sound` as its only assumed property. Its cost factor and its 72-byte input limit are not modelled.
- `time.ParseDuration`, the Europe/Stockholm zone, RFC 3339 formatting and the clock are parameters. Time is whole seconds.
- AuthHttp.Login: the cookie's Max-Age is `expiresAt - now` exactly. The Go code computes `time.Until` slightly later and truncates to whole seconds, so its value can be one second lower.
- AuthHttp.ResetPassword and AuthHttp.PatchAdmin: the `:id` segment arrives as the integer `fmt.Sscan` left behind. Sscan's own parsing is not modelled.
- Text: white space, letters, digits and case mapping are modelled for the Latin-1 range only. This covers `IsSpace`, `IsLetter`, `IsDigit`, `EqualFold` and `ToLower`. `ContainsStr` and `Join` are the plain definitions of strings.Contains and of strings.Join with a one-character separator; they carry no contract of their own. Unicode beyond it, and UTF-8 decoding of invalid byte sequences, are not modelled.
- MatchImport.ParseCSV: tokenising by `encoding/csv` is an abstract reader. The model decides everything the importer itself does around it: the delimiter, no rows, the header row and blank rows.
- MatchImport.ParseImport: opening the upload, the 10 MiB read cap and excelize's decoding are parameters. These include its "no sheet" and GetRows errors.
- MatchImport.Cell: with two columns of the same key, Go's map iteration picks either one. The model takes the leftmost.
- MatchImport.RowToMatch: `internal/matches/import.go` and `internal/matches/model.go` disagree about `Match`. import.go fills TopScorerTeam and TopScorerOpponent, which model.go does not declare, and it stores StartISO and EndISO as strings, which model.go types as `*time.Time`. The model follows import.go and `internal/matches/http.go`: the ISO times are optional strings. The TopScorer values are not kept, because no other part of the core reads or stores them.
- MatchRepository.List and AuthStore.ListUsers: ids are never reused. `ListMatches` is taken to return rows in id order.
- MatchHttp.ToDomain: goal counts are unbounded integers. A JSON number outside int64 fails to bind, and that falls under the `None` request.
- The admin rules asserted only by `internal/auth/http_test.go` are not stated as properties of the handlers, because the code does not implement them:
  - a refused last-admin demotion;
  - a DELETE route that refuses self-deletion.

=== FILE: auth_config.dfy ===
/**
 * The environment-derived settings of the auth package: the session lifetime
 * (SESSION_TTL), the cookie Secure flag (COOKIE_SECURE) and the admin allow-list
 * (ADMIN_EMAILS). The environment is passed in as a value; an unset variable
 * reads as "" just as `os.Getenv` returns it.
 */
module AuthConfig {

  import opened Wrappers
  import opened Text

  datatype Env = Env(sessionTtl: String, cookieSecure: String, adminEmails: String)

  /** 30 days, in the model's clock unit (seconds). */
  const DefaultTtl: int := 30 * 24 * 60 * 60

  /** The values of COOKIE_SECURE (after lower-casing) that keep the flag on. */
  const SecureWords: set<String> := {"1", "true", "yes"}

  /**
   * ttlFromEnv: the parsed SESSION_TTL when it parses to a positive duration,
   * otherwise 30 days. `parseDuration` stands for `time.ParseDuration`.
   */
  function TtlFromEnv(env: Env, parseDuration: String -> Option<int>): (ttl: int)
    ensures ttl > 0
    ensures ttl == DefaultTtl || (env.sessionTtl != "" && parseDuration(env.sessionTtl) == Some(ttl))
    ensures env.sessionTtl != "" && parseDuration(env.sessionTtl).Some? && parseDuration(env.sessionTtl).value > 0
      ==> ttl == parseDuration(env.sessionTtl).value
  {
    if env.sessionTtl != "" && parseDuration(env.sessionTtl).Some? && parseDuration(env.sessionTtl).value > 0 then
      parseDuration(env.sessionTtl).value
    else
      DefaultTtl
  }

  /** cookieSecure: on when COOKIE_SECURE is unset, else on iff it is 1/true/yes in any case. */
  function CookieSecure(env: Env): (secure: bool)
    ensures env.cookieSecure == "" ==> secure
    ensures env.cookieSecure != "" ==> (secure <==> ToLower(env.cookieSecure) in SecureWords)
  {
    var v := ToLower(env.cookieSecure);
    if v != "" then v in SecureWords else true
  }

  /** The email normalisation of `isAdminEmail`: trim, then lower-case. */
  function NormEmail(s: String): String {
    ToLower(TrimSpace(s))
  }

  /** Some entry of `items` normalises to `e`. */
  ghost predicate Listed(items: seq<String>, e: String) {
    exists i :: 0 <= i < |items| && NormEmail(items[i]) == e
  }

  /** A linear scan of the allow-list entries. */
  function AnyEntryIs(items: seq<String>, e: String): (b: bool)
    ensures b <==> Listed(items, e)
  {
    if items == [] then false
    else if NormEmail(items[0]) == e then true
    else
      ListedTail(items, e);
      AnyEntryIs(items[1..], e)
  }

  lemma ListedTail(items: seq<String>, e: String)
    requires items != [] && NormEmail(items[0]) != e
    ensures Listed(items, e) <==> Listed(items[1..], e)
  {
    if Listed(items, e) {
      var i :| 0 <= i < |items| && NormEmail(items[i]) == e;
      assert items[1..][i - 1] == items[i];
    }
    if Listed(items[1..], e) {
      var i :| 0 <= i < |items[1..]| && NormEmail(items[1..][i]) == e;
      assert items[i + 1] == items[1..][i];
    }
  }

  /**
   * isAdminEmail: the normalised email is non-empty and equals some normalised
   * entry of the comma-separated ADMIN_EMAILS list.
   */
  function IsAdminEmail(adminEmails: String, email: String): (b: bool)
    ensures b <==> NormEmail(email) != "" && Listed(Split(adminEmails, ','), NormEmail(email))
  {
    var e := NormEmail(email);
    var items := Split(adminEmails, ',');
    e != "" && AnyEntryIs(items, e)
  }

  // ---------------------------------------------------------------------------
  // Lemmas
  // ---------------------------------------------------------------------------

  /** Normalising twice is normalising once. */
  lemma NormEmailIdempotent(s: String)
    ensures NormEmail(NormEmail(s)) == NormEmail(s)
  {
    var t := TrimSpace(s);
    TrimLowerCommute(t);
    TrimSpaceIdempotent(s);
    ToLowerIdempotent(t);
  }

  /** The allow-list check ignores case and surrounding white space of the email. */
  lemma IsAdminEmailNormalised(adminEmails: String, email: String)
    ensures IsAdminEmail(adminEmails, email) == IsAdminEmail(adminEmails, NormEmail(email))
  {
    NormEmailIdempotent(email);
  }

  /**
   * An email listed in ADMIN_EMAILS (entries joined with commas, none containing
   * a comma) is an admin email exactly when it normalises to a non-empty string.
   */
  lemma IsAdminEmailListed(entries: seq<String>, k: int)
    requires 0 <= k < |entries|
    requires forall i :: 0 <= i < |entries| ==> ',' !in entries[i]
    ensures IsAdminEmail(Join(entries, ','), entries[k]) <==> NormEmail(entries[k]) != ""
  {
    SplitJoin(entries, ',');
  }

  /** COOKIE_SECURE is read case-insensitively. */
  lemma CookieSecureCaseInsensitive(env: Env)
    ensures CookieSecure(env) == CookieSecure(env.(cookieSecure := ToLower(env.cookieSecure)))
  {
    ToLowerIdempotent(env.cookieSecure);
  }

  /** The Secure flag is only ever off through an explicit COOKIE_SECURE value outside 1/true/yes. */
  lemma CookieSecureOffOnlyExplicitly(env: Env)
    requires !CookieSecure(env)
    ensures env.cookieSecure != ""
    ensures ToLower(env.cookieSecure) !in SecureWords
  {
  }
}

=== FILE: auth_http.dfy ===
/**
 * The decision logic of the auth handlers (internal/auth/http.go): each route and
 * middleware becomes a pure function from the store, the request's parsed body
 * and cookie, and the environment to a status code, a body, the new store and
 * the cookie it sets. JSON binding is reduced to `None` (invalid JSON) or the
 * decoded request; bcrypt is an abstract `Hasher`.
 */
module AuthHttp {

  import opened Wrappers
  import opened Text
  import Hex
  import opened AuthStore
  import opened AuthConfig

  const CookieName: String := "session_token"

  /** Minimum password length in bytes (`len(password)` in Go). */
  const MinPasswordBytes: int := 12

  /** A Set-Cookie header; SameSite is always Lax. */
  datatype Cookie = Cookie(name: String, value: String, maxAge: int, path: String, secure: bool, httpOnly: bool)

  /** A user as the admin list shows it: without the password hash. */
  datatype UserView = UserView(id: int, email: String, isAdmin: bool, createdAt: int)

  datatype Body =
    | ErrorBody(error: String)
    | OkBody
    | Registered(id: int, email: String)
    | MeBody(id: int, email: String, isAdmin: bool)
    | UserList(users: seq<UserView>)

  datatype Response = Response(status: int, body: Body, store: Store, setCookie: Option<Cookie>)

  /** The JSON body of register and login. */
  datatype Credentials = Credentials(email: String, password: String)

  /** The outcome of a middleware: continue with the handler, or abort with a status. */
  datatype Gate = Next | Abort(status: int, error: String)

  type Salt = seq<Hex.byte>

  /**
   * bcrypt: `hash` is GenerateFromPassword with a random salt (`None` when it
   * fails), `verify` is CompareHashAndPassword succeeding.
   */
  datatype Hasher = Hasher(hash: (String, Salt) -> Option<String>, verify: (String, String) -> bool)

  /** A hash produced for a password verifies against that password. */
  ghost predicate Sound(h: Hasher) {
    forall p, s :: h.hash(p, s).Some? ==> h.verify(p, h.hash(p, s).value)
  }

  /** The text of a repository error, as `err.Error()` shows it. */
  function ErrorText(e: DbError): String {
    match e
    case NoRows => "sql: no rows in result set"
    case UniqueConstraint(column) => "UNIQUE constraint failed: " + column
    case EntropyUnavailable => "crypto/rand: read failed"
    case Internal(message) => message
  }

  /** The email normalisation of register and login: lower-case, then trim. */
  function LoginEmail(s: String): String {
    TrimSpace(ToLower(s))
  }

  function Reply(status: int, body: Body, st: Store): Response {
    Response(status, body, st, None)
  }

  // ---------------------------------------------------------------------------
  // /api/auth routes
  // ---------------------------------------------------------------------------

  /** The status register answers a failed insert with: 409 when the error text mentions "unique". */
  function InsertFailure(e: DbError, st: Store): (r: Response)
    ensures r.store == st && r.setCookie == None
    ensures r.status == 409 <==> ContainsStr(ToLower(ErrorText(e)), "unique")
    ensures r.status != 409 ==> r.status == 500
  {
    if ContainsStr(ToLower(ErrorText(e)), "unique") then Reply(409, ErrorBody("email already in use"), st)
    else Reply(500, ErrorBody(ErrorText(e)), st)
  }

  /** POST /api/auth/register. */
  function Register(st: Store, req: Option<Credentials>, h: Hasher, salt: Salt, now: int): (r: Response)
    ensures r.status in {201, 400, 409, 500}
    ensures r.status != 201 ==> r.store == st
    ensures r.setCookie == None
    ensures req.None? ==> r == Reply(400, ErrorBody("invalid json"), st)
    ensures req.Some? && LoginEmail(req.value.email) != "" && '@' in LoginEmail(req.value.email)
            && Utf8Len(req.value.password) >= MinPasswordBytes && h.hash(req.value.password, salt).None? ==>
      r == Reply(500, ErrorBody("hash failed"), st)
    ensures r.status == 201 ==>
      && req.Some? && LoginEmail(req.value.email) != "" && '@' in LoginEmail(req.value.email)
      && Utf8Len(req.value.password) >= MinPasswordBytes && h.hash(req.value.password, salt).Some?
      && var c := CreateUser(st, LoginEmail(req.value.email), h.hash(req.value.password, salt).value, now);
         c.result.Success? && r.store == c.store && r.body == Registered(c.result.value.id, c.result.value.email)
  {
    match req
    case None => Reply(400, ErrorBody("invalid json"), st)
    case Some(c) =>
      var email := LoginEmail(c.email);
      if email == "" || '@' !in email then Reply(400, ErrorBody("invalid email"), st)
      else if Utf8Len(c.password) < MinPasswordBytes then Reply(400, ErrorBody("password too short (min 12)"), st)
      else
        match h.hash(c.password, salt)
        case None => Reply(500, ErrorBody("hash failed"), st)
        case Some(digest) =>
          var created := CreateUser(st, email, digest, now);
          match created.result
          case Failure(e) => InsertFailure(e, st)
          case Success(u) => Reply(201, Registered(u.id, u.email), created.store)
  }

  /** The one response login gives for an unknown email and for a wrong password. */
  function InvalidCredentials(st: Store): Response {
    Reply(401, ErrorBody("invalid credentials"), st)
  }

  /**
   * POST /api/auth/login. `parseDuration` reads SESSION_TTL, `entropy` feeds the
   * new token; the cookie's Max-Age is the remaining lifetime in seconds.
   */
  function Login(st: Store, req: Option<Credentials>, h: Hasher, env: Env, parseDuration: String -> Option<int>,
                 entropy: Option<Entropy>, now: int): (r: Response)
    ensures r.status in {200, 400, 401, 500}
    ensures r.status != 200 ==> r.store == st && r.setCookie == None
    ensures r.status == 200 ==> r.setCookie.Some? && r.setCookie.value.name == CookieName
    ensures r.store.users == st.users
    ensures r.status == 400 <==> req.None? || LoginEmail(req.value.email) == "" || req.value.password == ""
    ensures r.status == 401 <==>
      && req.Some? && LoginEmail(req.value.email) != "" && req.value.password != ""
      && (GetUserByEmail(st, LoginEmail(req.value.email)).Failure?
          || !h.verify(req.value.password, GetUserByEmail(st, LoginEmail(req.value.email)).value.passwordHash))
    ensures r.status == 500 <==>
      && req.Some? && LoginEmail(req.value.email) != "" && req.value.password != ""
      && GetUserByEmail(st, LoginEmail(req.value.email)).Success?
      && h.verify(req.value.password, GetUserByEmail(st, LoginEmail(req.value.email)).value.passwordHash)
      && CreateSession(st, GetUserByEmail(st, LoginEmail(req.value.email)).value.id,
                       TtlFromEnv(env, parseDuration), now, entropy).result.Failure?
  {
    match req
    case None => Reply(400, ErrorBody("invalid json"), st)
    case Some(c) =>
      var email := LoginEmail(c.email);
      if email == "" || c.password == "" then Reply(400, ErrorBody("missing email or password"), st)
      else
        match GetUserByEmail(st, email)
        case Failure(_) => InvalidCredentials(st)
        case Success(u) =>
          if !h.verify(c.password, u.passwordHash) then InvalidCredentials(st)
          else StartSession(st, u.id, env, parseDuration, entropy, now)
  }

  /** The last step of a successful login: a session for `uid` and its cookie, or 500. */
  function StartSession(st: Store, uid: int, env: Env, parseDuration: String -> Option<int>,
                        entropy: Option<Entropy>, now: int): (r: Response)
    ensures r.status in {200, 500}
    ensures r.status == 500 <==> CreateSession(st, uid, TtlFromEnv(env, parseDuration), now, entropy).result.Failure?
    ensures r.status == 500 ==> r.store == st && r.setCookie == None
    ensures r.status == 200 ==> r.setCookie.Some? && r.setCookie.value.name == CookieName
    ensures r.store.users == st.users
  {
    var created := CreateSession(st, uid, TtlFromEnv(env, parseDuration), now, entropy);
    match created.result
    case Failure(_) => Reply(500, ErrorBody("session failed"), st)
    case Success(s) =>
      Response(200, OkBody, created.store,
               Some(Cookie(CookieName, s.token, s.expiresAt - now, "/", CookieSecure(env), true)))
  }

  /** POST /api/auth/logout: always 200 and an expired cookie; a non-empty cookie's session is deleted. */
  function Logout(st: Store, cookie: Option<String>, env: Env): (r: Response)
    ensures r.status == 200 && r.body == OkBody
    ensures r.setCookie == Some(Cookie(CookieName, "", -1, "/", CookieSecure(env), true))
    ensures cookie.None? || cookie.value == "" ==> r.store == st
    ensures cookie.Some? && cookie.value != "" ==> r.store == DeleteSession(st, cookie.value)
  {
    var st' := if cookie.Some? && cookie.value != "" then DeleteSession(st, cookie.value) else st;
    Response(200, OkBody, st', Some(Cookie(CookieName, "", -1, "/", CookieSecure(env), true)))
  }

  /** CurrentUser: the user behind a non-empty session cookie, if it resolves. */
  function CurrentUser(st: Store, cookie: Option<String>, now: int, sweepFails: bool): (r: (Store, Option<User>))
    ensures r.1.Some? <==> cookie.Some? && cookie.value != "" && Live(st, cookie.value, now)
    ensures r.1.Some? ==> r.1.value == st.users[st.sessions[cookie.value].userId]
    ensures r.0.users == st.users
  {
    if cookie.None? || cookie.value == "" then (st, None)
    else
      var res := GetUserBySession(st, cookie.value, now, sweepFails);
      match res.result
      case Failure(_) => (res.store, None)
      case Success(u) => (res.store, Some(u))
  }

  /** GET /api/auth/me: the user, with admin status as stored flag or allow-list membership. */
  function Me(st: Store, cookie: Option<String>, env: Env, now: int, sweepFails: bool): (r: Response)
    ensures r.status in {200, 401}
    ensures r.status == 200 <==> CurrentUser(st, cookie, now, sweepFails).1.Some?
    ensures r.status == 200 ==>
      var u := CurrentUser(st, cookie, now, sweepFails).1.value;
      r.body == MeBody(u.id, u.email, u.isAdmin || IsAdminEmail(env.adminEmails, u.email))
  {
    var cu := CurrentUser(st, cookie, now, sweepFails);
    match cu.1
    case None => Reply(401, ErrorBody("unauthorized"), cu.0)
    case Some(u) => Reply(200, MeBody(u.id, u.email, u.isAdmin || IsAdminEmail(env.adminEmails, u.email)), cu.0)
  }

  // ---------------------------------------------------------------------------
  // Middleware
  // ---------------------------------------------------------------------------

  /** AuthRequired, given the outcome of resolving the cookie: no-rows is 401, any other error 500. */
  function AuthRequiredGate(cookie: Option<String>, lookup: Result<User, DbError>): (g: Gate)
    ensures g.Next? <==> cookie.Some? && cookie.value != "" && lookup.Success?
    ensures g.Abort? && g.status == 500 <==> cookie.Some? && cookie.value != "" && lookup.Failure? && lookup.error != NoRows
    ensures g.Abort? ==> g.status in {401, 500}
  {
    if cookie.None? || cookie.value == "" then Abort(401, "unauthorized")
    else
      match lookup
      case Success(_) => Next
      case Failure(NoRows) => Abort(401, "unauthorized")
      case Failure(_) => Abort(500, "auth failed")
  }

  /** AdminRequired, given the outcome of resolving the cookie: every error is 401, a non-admin 403. */
  function AdminRequiredGate(cookie: Option<String>, lookup: Result<User, DbError>, adminEmails: String): (g: Gate)
    ensures g.Abort? && g.status == 401 <==> cookie.None? || cookie.value == "" || lookup.Failure?
    ensures g.Abort? && g.status == 403 <==>
      cookie.Some? && cookie.value != "" && lookup.Success?
      && !lookup.value.isAdmin && !IsAdminEmail(adminEmails, lookup.value.email)
    ensures g.Next? <==>
      cookie.Some? && cookie.value != "" && lookup.Success?
      && (lookup.value.isAdmin || IsAdminEmail(adminEmails, lookup.value.email))
  {
    if cookie.None? || cookie.value == "" then Abort(401, "unauthorized")
    else
      match lookup
      case Failure(_) => Abort(401, "unauthorized")
      case Success(u) => if u.isAdmin || IsAdminEmail(adminEmails, u.email) then Next else Abort(403, "forbidden")
  }

  /** AuthRequired against the store: the lookup runs only when a non-empty cookie is present. */
  function AuthRequired(st: Store, cookie: Option<String>, now: int, sweepFails: bool): (r: (Store, Gate))
    ensures r.1.Next? <==> cookie.Some? && cookie.value != "" && Live(st, cookie.value, now)
    ensures r.1.Abort? ==> r.1.status == 401
    ensures r.0.users == st.users
  {
    if cookie.None? || cookie.value == "" then (st, Abort(401, "unauthorized"))
    else
      var res := GetUserBySession(st, cookie.value, now, sweepFails);
      (res.store, AuthRequiredGate(cookie, res.result))
  }

  /** AdminRequired against the store. */
  function AdminRequired(st: Store, cookie: Option<String>, env: Env, now: int, sweepFails: bool): (r: (Store, Gate))
    ensures r.1.Next? <==>
      cookie.Some? && cookie.value != "" && Live(st, cookie.value, now)
      && var u := st.users[st.sessions[cookie.value].userId];
         u.isAdmin || IsAdminEmail(env.adminEmails, u.email)
    ensures r.0.users == st.users
  {
    if cookie.None? || cookie.value == "" then (st, Abort(401, "unauthorized"))
    else
      var res := GetUserBySession(st, cookie.value, now, sweepFails);
      (res.store, AdminRequiredGate(cookie, res.result, env.adminEmails))
  }

  // ---------------------------------------------------------------------------
  // /api/admin routes (mounted behind AdminRequired)
  // ---------------------------------------------------------------------------

  function View(u: User): UserView {
    UserView(u.id, u.email, u.isAdmin, u.createdAt)
  }

  /** GET /api/admin/users: every user ordered by id, without password hashes. */
  function ListUsersRoute(st: Store): (r: Response)
    ensures r.status == 200 && r.store == st && r.body.UserList?
    ensures |r.body.users| == |ListUsers(st)|
    ensures forall k :: 0 <= k < |r.body.users| ==>
      var u := ListUsers(st)[k];
      r.body.users[k] == UserView(u.id, u.email, u.isAdmin, u.createdAt)
  {
    var us := ListUsers(st);
    Reply(200, UserList(seq(|us|, k requires 0 <= k < |us| => View(us[k]))), st)
  }

  /**
   * POST /api/admin/users/:id/reset_password. `id` is what `fmt.Sscan` left in
   * the int64 (0 when the path segment does not parse).
   */
  function ResetPassword(st: Store, req: Option<String>, id: int, h: Hasher, salt: Salt): (r: Response)
    ensures r.status in {200, 400, 500}
    ensures r.status != 200 ==> r.store == st
    ensures r.status == 200 ==>
      req.Some? && id > 0 && h.hash(req.value, salt).Some?
      && r.store == SetPasswordHash(st, id, h.hash(req.value, salt).value)
    ensures r.status == 200 <==>
      req.Some? && Utf8Len(req.value) >= MinPasswordBytes && id > 0 && h.hash(req.value, salt).Some?
    ensures r.status == 500 <==>
      req.Some? && Utf8Len(req.value) >= MinPasswordBytes && id > 0 && h.hash(req.value, salt).None?
    ensures req.Some? && Utf8Len(req.value) >= MinPasswordBytes && id <= 0 ==>
      r == Reply(400, ErrorBody("invalid id"), st)
  {
    match req
    case None => Reply(400, ErrorBody("invalid json"), st)
    case Some(password) =>
      if Utf8Len(password) < MinPasswordBytes then Reply(400, ErrorBody("password too short (min 12)"), st)
      else if id <= 0 then Reply(400, ErrorBody("invalid id"), st)
      else
        match h.hash(password, salt)
        case None => Reply(500, ErrorBody("hash failed"), st)
        case Some(digest) => Reply(200, OkBody, SetPasswordHash(st, id, digest))
  }

  /** PATCH /api/admin/users/:id/admin: sets the flag of any positive id, with no further check. */
  function PatchAdmin(st: Store, req: Option<bool>, id: int): (r: Response)
    ensures r.status in {200, 400}
    ensures r.status == 200 <==> req.Some? && id > 0
    ensures r.status == 200 ==> r.store == SetAdmin(st, id, req.value)
    ensures r.status == 400 ==> r.store == st
  {
    match req
    case None => Reply(400, ErrorBody("invalid json"), st)
    case Some(isAdmin) =>
      if id <= 0 then Reply(400, ErrorBody("invalid id"), st)
      else Reply(200, OkBody, SetAdmin(st, id, isAdmin))
  }

  /** An admin route behind AdminRequired: an aborted gate answers with its status and runs nothing. */
  function AdminGuarded(st: Store, cookie: Option<String>, env: Env, now: int, sweepFails: bool,
                        route: Store -> Response): (r: Response)
    ensures AdminRequired(st, cookie, env, now, sweepFails).1.Abort? ==>
      r.status in {401, 403} && r.store.users == st.users
    ensures AdminRequired(st, cookie, env, now, sweepFails).1.Next? ==>
      r == route(AdminRequired(st, cookie, env, now, sweepFails).0)
  {
    var (st', gate) := AdminRequired(st, cookie, env, now, sweepFails);
    match gate
    case Next => route(st')
    case Abort(status, error) => Reply(status, ErrorBody(error), st')
  }

  // ---------------------------------------------------------------------------
  // Lemmas
  // ---------------------------------------------------------------------------

  /** Register rejects a blank or @-less email with 400 before hashing or storing anything. */
  lemma RegisterRejectsInvalidEmail(st: Store, c: Credentials, h: Hasher, salt: Salt, now: int)
    requires LoginEmail(c.email) == "" || '@' !in LoginEmail(c.email)
    ensures Register(st, Some(c), h, salt, now) == Reply(400, ErrorBody("invalid email"), st)
  {
  }

  /** A password shorter than 12 bytes is rejected at register (after the email check) ... */
  lemma RegisterRejectsShortPassword(st: Store, c: Credentials, h: Hasher, salt: Salt, now: int)
    requires LoginEmail(c.email) != "" && '@' in LoginEmail(c.email)
    requires Utf8Len(c.password) < MinPasswordBytes
    ensures Register(st, Some(c), h, salt, now) == Reply(400, ErrorBody("password too short (min 12)"), st)
  {
  }

  /** ... and at reset_password, before the id is looked at. */
  lemma ResetRejectsShortPasswordFirst(st: Store, password: String, id: int, h: Hasher, salt: Salt)
    requires Utf8Len(password) < MinPasswordBytes
    ensures ResetPassword(st, Some(password), id, h, salt) == Reply(400, ErrorBody("password too short (min 12)"), st)
  {
  }

  /**
   * A reset with a long enough password, a positive id and a working hasher answers
   * 200 and leaves that user with a hash that verifies the new password.
   */
  lemma ResetPasswordSucceeds(st: Store, password: String, id: int, h: Hasher, salt: Salt)
    requires Sound(h)
    requires Utf8Len(password) >= MinPasswordBytes && id > 0 && h.hash(password, salt).Some?
    requires id in st.users
    ensures var r := ResetPassword(st, Some(password), id, h, salt);
      r.status == 200 && r.body == OkBody
      && id in r.store.users && h.verify(password, r.store.users[id].passwordHash)
      && r.store.sessions == st.sessions
  {
  }

  /**
   * A successful registration stores the lower-cased, trimmed email with a hash
   * that verifies the password, and only the first user of an empty table is admin.
   */
  lemma RegisterStoresNormalisedUser(st: Store, c: Credentials, h: Hasher, salt: Salt, now: int)
    requires Valid(st) && Sound(h)
    requires Register(st, Some(c), h, salt, now).status == 201
    ensures var r := Register(st, Some(c), h, salt, now);
      && r.body.Registered? && r.body.email == LoginEmail(c.email)
      && r.body.id in r.store.users && r.body.id !in st.users
      && r.store.users[r.body.id].email == LoginEmail(c.email)
      && h.verify(c.password, r.store.users[r.body.id].passwordHash)
      && (r.store.users[r.body.id].isAdmin <==> st.users == map[])
      && Valid(r.store)
  {
  }

  lemma UniqueErrorIsConflict()
    ensures ContainsStr(ToLower(ErrorText(UniqueConstraint("users.email"))), "unique")
  {
    assert OccursAt(ToLower(ErrorText(UniqueConstraint("users.email"))), "unique", 0);
  }

  /** Registering a taken email (after a successful hash) is a 409 that changes nothing. */
  lemma RegisterDuplicateConflicts(st: Store, c: Credentials, h: Hasher, salt: Salt, now: int)
    requires LoginEmail(c.email) != "" && '@' in LoginEmail(c.email)
    requires Utf8Len(c.password) >= MinPasswordBytes && h.hash(c.password, salt).Some?
    requires EmailTaken(st, LoginEmail(c.email))
    ensures Register(st, Some(c), h, salt, now) == Reply(409, ErrorBody("email already in use"), st)
  {
    UniqueErrorIsConflict();
  }

  /**
   * Login does not reveal whether an account exists: an unknown email and a
   * wrong password for a known one give the same response, with nothing changed.
   */
  lemma LoginUnknownEmail(st: Store, c: Credentials, h: Hasher, env: Env, pd: String -> Option<int>,
                          entropy: Option<Entropy>, now: int)
    requires Valid(st)
    requires LoginEmail(c.email) != "" && c.password != ""
    requires !EmailTaken(st, LoginEmail(c.email))
    ensures Login(st, Some(c), h, env, pd, entropy, now) == InvalidCredentials(st)
  {
    var lookup := GetUserByEmail(st, LoginEmail(c.email));
    assert lookup.Failure?;
    assert Login(st, Some(c), h, env, pd, entropy, now) == InvalidCredentials(st);
  }

  lemma LoginWrongPassword(st: Store, c: Credentials, h: Hasher, env: Env, pd: String -> Option<int>,
                           entropy: Option<Entropy>, now: int, id: int)
    requires Valid(st)
    requires LoginEmail(c.email) != "" && c.password != ""
    requires id in st.users && st.users[id].email == LoginEmail(c.email)
    requires !h.verify(c.password, st.users[id].passwordHash)
    ensures Login(st, Some(c), h, env, pd, entropy, now) == InvalidCredentials(st)
  {
    LookupFindsUser(st, LoginEmail(c.email), id);
  }

  /** With unique emails, looking up a stored user's email finds exactly that user. */
  lemma LookupFindsUser(st: Store, email: String, id: int)
    requires Valid(st) && id in st.users && st.users[id].email == email
    ensures GetUserByEmail(st, email) == Success(st.users[id])
  {
    assert EmailTaken(st, email);
    var u := GetUserByEmail(st, email).value;
    assert st.users[u.id].email == st.users[id].email;
  }

  /**
   * Login with the right password for a stored email and fresh entropy: 200, a
   * session for that user expiring one TTL from now, and an HttpOnly cookie
   * carrying its token whose Max-Age is the TTL.
   */
  lemma LoginSucceeds(st: Store, c: Credentials, h: Hasher, env: Env, pd: String -> Option<int>,
                      entropy: Entropy, now: int, id: int)
    requires Valid(st)
    requires LoginEmail(c.email) != "" && c.password != ""
    requires id in st.users && st.users[id].email == LoginEmail(c.email)
    requires h.verify(c.password, st.users[id].passwordHash)
    requires Hex.Encode(entropy) !in st.sessions
    ensures var r := Login(st, Some(c), h, env, pd, Some(entropy), now);
      var tok := Hex.Encode(entropy);
      var ttl := TtlFromEnv(env, pd);
      && r.status == 200
      && r.setCookie == Some(Cookie(CookieName, tok, ttl, "/", CookieSecure(env), true))
      && r.store == st.(sessions := st.sessions[tok := Session(tok, id, now + ttl, now)])
  {
    LookupFindsUser(st, LoginEmail(c.email), id);
    var created := CreateSession(st, id, TtlFromEnv(env, pd), now, Some(entropy));
    assert created.result.Success?;
    var sess := created.result.value;
    assert sess.expiresAt - now == TtlFromEnv(env, pd);
  }

  /** The two gates differ only on a database failure: AuthRequired answers 500, AdminRequired 401. */
  lemma GatesDifferOnDbFailure(token: String, e: DbError, adminEmails: String)
    requires token != "" && e != NoRows
    ensures AuthRequiredGate(Some(token), Failure(e)) == Abort(500, "auth failed")
    ensures AdminRequiredGate(Some(token), Failure(e), adminEmails) == Abort(401, "unauthorized")
  {
  }

  /** Whatever the lookup, a request AdminRequired lets through also passes AuthRequired. */
  lemma AdminGateImpliesAuthGate(cookie: Option<String>, lookup: Result<User, DbError>, adminEmails: String)
    requires AdminRequiredGate(cookie, lookup, adminEmails).Next?
    ensures AuthRequiredGate(cookie, lookup).Next?
  {
  }

  /** /me reports `is_admin` exactly for the requests AdminRequired lets through. */
  lemma MeAgreesWithAdminGate(st: Store, cookie: Option<String>, env: Env, now: int, sweepFails: bool)
    ensures var me := Me(st, cookie, env, now, sweepFails);
      (me.status == 200 && me.body.isAdmin) <==> AdminRequired(st, cookie, env, now, sweepFails).1.Next?
    ensures Me(st, cookie, env, now, sweepFails).status == 401 <==>
      AdminRequired(st, cookie, env, now, sweepFails).1 == Abort(401, "unauthorized")
  {
  }

  /**
   * The PATCH route as written: demoting the only flagged admin succeeds and
   * leaves no user with the admin flag (CountOtherAdmins is never consulted).
   */
  lemma PatchAdminCanRemoveLastAdmin(st: Store, id: int)
    requires id > 0 && AdminIds(st) == {id}
    ensures PatchAdmin(st, Some(false), id).status == 200
    ensures AdminIds(PatchAdmin(st, Some(false), id).store) == {}
  {
    CountOtherAdminsAfterDemotion(st, id);
  }

  /**
   * A logged-in caller who is neither flagged nor allow-listed gets 403 from every
   * admin route, and the users table is left as it was.
   */
  lemma NonAdminIsForbidden(st: Store, token: String, env: Env, now: int, sweepFails: bool, route: Store -> Response)
    requires token != "" && Live(st, token, now)
    requires var u := st.users[st.sessions[token].userId]; !u.isAdmin && !IsAdminEmail(env.adminEmails, u.email)
    ensures var r := AdminGuarded(st, Some(token), env, now, sweepFails, route);
      r.status == 403 && r.store.users == st.users
  {
    var res := GetUserBySession(st, token, now, sweepFails);
    assert res.result.Success?;
  }

  /** Registering a fresh, valid email with a long enough password answers 201 and inserts the user. */
  lemma RegisterFresh(st: Store, c: Credentials, h: Hasher, salt: Salt, now: int)
    requires Valid(st)
    requires LoginEmail(c.email) != "" && '@' in LoginEmail(c.email)
    requires Utf8Len(c.password) >= MinPasswordBytes && h.hash(c.password, salt).Some?
    requires !EmailTaken(st, LoginEmail(c.email))
    ensures var reg := Register(st, Some(c), h, salt, now);
      var created := CreateUser(st, LoginEmail(c.email), h.hash(c.password, salt).value, now);
      reg.status == 201 && created.result.Success? && reg.store == created.store
  {
    var created := CreateUser(st, LoginEmail(c.email), h.hash(c.password, salt).value, now);
    assert created.result.Success?;
  }

  /** While its session is live, a cookie makes /me answer 200 with the session's user. */
  lemma MeWhileLive(st: Store, token: String, env: Env, now: int, sweepFails: bool)
    requires token != "" && Live(st, token, now)
    ensures var me := Me(st, Some(token), env, now, sweepFails);
      me.status == 200 && me.body.email == st.users[st.sessions[token].userId].email
  {
  }

  /** After logout with a cookie, /me with the same cookie is a 401. */
  lemma MeAfterLogout(st: Store, token: String, env: Env, now: int, sweepFails: bool)
    requires token != ""
    ensures Me(Logout(st, Some(token), env).store, Some(token), env, now, sweepFails).status == 401
  {
  }

  /**
   * Register, login, /me, logout, /me: a fresh email registers (201), logs in
   * (200 with a cookie), the cookie resolves on /me to the normalised email until
   * it expires, and after logout the same cookie gets 401.
   */
  lemma SessionScenario(st: Store, c: Credentials, h: Hasher, salt: Salt, env: Env, pd: String -> Option<int>,
                        entropy: Entropy, now: int, later: int, sw1: bool, sw2: bool)
    requires Valid(st) && Sound(h)
    requires LoginEmail(c.email) != "" && '@' in LoginEmail(c.email)
    requires Utf8Len(c.password) >= MinPasswordBytes && h.hash(c.password, salt).Some?
    requires !EmailTaken(st, LoginEmail(c.email))
    requires Hex.Encode(entropy) !in st.sessions
    requires now <= later < now + TtlFromEnv(env, pd)
    ensures var reg := Register(st, Some(c), h, salt, now);
      var login := Login(reg.store, Some(c), h, env, pd, Some(entropy), now);
      var ck := Some(Hex.Encode(entropy));
      var me := Me(login.store, ck, env, later, sw1);
      var out := Logout(me.store, ck, env);
      && reg.status == 201
      && login.status == 200 && login.setCookie.value.value == Hex.Encode(entropy)
      && me.status == 200 && me.body.email == LoginEmail(c.email)
      && out.status == 200
      && Me(out.store, ck, env, later, sw2).status == 401
  {
    var email := LoginEmail(c.email);
    var digest := h.hash(c.password, salt).value;
    RegisterFresh(st, c, h, salt, now);
    var created := CreateUser(st, email, digest, now);
    var u := created.result.value;
    var reg := Register(st, Some(c), h, salt, now);
    assert c.password != "";
    assert h.verify(c.password, reg.store.users[u.id].passwordHash);
    LoginSucceeds(reg.store, c, h, env, pd, entropy, now, u.id);
    var tok := Hex.Encode(entropy);
    assert tok != "";
    var login := Login(reg.store, Some(c), h, env, pd, Some(entropy), now);
    assert Live(login.store, tok, later);
    MeWhileLive(login.store, tok, env, later, sw1);
    var me := Me(login.store, Some(tok), env, later, sw1);
    MeAfterLogout(me.store, tok, env, later, sw2);
  }
}

=== FILE: auth_store.dfy ===
/**
 * The auth repository (internal/auth/repository.go) as an abstract store: the
 * `users`, `sessions` and `used_emails` tables become maps and every repository
 * method becomes one atomic transition returning the new store and its result.
 * The clock is an integer `now` in seconds, passed in by the caller.
 */
module AuthStore {

  import opened Wrappers
  import opened Text
  import Hex
  import opened Ids

  datatype User = User(id: int, email: String, passwordHash: String, createdAt: int, isAdmin: bool)

  datatype Session = Session(token: String, userId: int, expiresAt: int, createdAt: int)

  /**
   * `users` keyed by id, `sessions` keyed by token, `reserved` (the used_emails
   * table) maps an email to the id that reserved it, if any. `nextId` is the id
   * the next inserted user receives.
   */
  datatype Store = Store(
    users: map<int, User>,
    sessions: map<String, Session>,
    reserved: map<String, Option<int>>,
    nextId: int)

  /** The errors a repository call can return. */
  datatype DbError =
    | NoRows                      // sql.ErrNoRows
    | UniqueConstraint(column: String)
    | EntropyUnavailable          // crypto/rand failed in NewToken
    | Internal(message: String)   // any other database failure

  /** The store after a call, and what the call returned. */
  datatype Step<T> = Step(store: Store, result: Result<T, DbError>)

  /** 32 random bytes, the input of NewToken. */
  type Entropy = b: seq<Hex.byte> | |b| == 32 witness seq(32, _ => 0 as Hex.byte)

  const Empty: Store := Store(map[], map[], map[], 1)

  /** The invariant every reachable store keeps. */
  ghost predicate Valid(st: Store) {
    && st.nextId >= 1
    && (forall id :: id in st.users ==> 1 <= id < st.nextId && st.users[id].id == id)
    && (forall a, b :: a in st.users && b in st.users && st.users[a].email == st.users[b].email ==> a == b)
    && (forall t :: t in st.sessions ==> st.sessions[t].token == t)
  }

  predicate EmailTaken(st: Store, email: String) {
    exists id :: id in st.users && st.users[id].email == email
  }

  /** Ids of the users whose stored admin flag is set. */
  function AdminIds(st: Store): set<int> {
    set id | id in st.users && st.users[id].isAdmin
  }

  /** A token resolves at `now`: its session is unexpired and its user exists. */
  predicate Live(st: Store, token: String, now: int) {
    && token in st.sessions
    && st.sessions[token].expiresAt > now
    && st.sessions[token].userId in st.users
  }

  lemma EmptyValid()
    ensures Valid(Empty)
  {
  }

  // ---------------------------------------------------------------------------
  // Users
  // ---------------------------------------------------------------------------

  /**
   * CreateUser: in one transaction, count the users, then insert. The user is an
   * admin exactly when the table was empty; a taken email fails on the unique
   * index and the transaction is rolled back.
   */
  function CreateUser(st: Store, email: String, passwordHash: String, now: int): (r: Step<User>)
    ensures r.result.Failure? <==> EmailTaken(st, email)
    ensures r.result.Failure? ==> r.store == st && r.result.error == UniqueConstraint("users.email")
    ensures r.result.Success? ==>
      var u := r.result.value;
      && u.email == email && u.passwordHash == passwordHash && u.createdAt == now
      && (u.isAdmin <==> st.users == map[])
      && r.store.users == st.users[u.id := u]
      && r.store.sessions == st.sessions && r.store.reserved == st.reserved
      && (Valid(st) ==> u.id !in st.users && Valid(r.store))
  {
    if exists id :: id in st.users && st.users[id].email == email then
      Step(st, Failure(UniqueConstraint("users.email")))
    else
      var u := User(st.nextId, email, passwordHash, now, |st.users| == 0);
      Step(st.(users := st.users[u.id := u], nextId := st.nextId + 1), Success(u))
  }

  function GetUserByID(st: Store, id: int): (r: Result<User, DbError>)
    ensures r.Success? <==> id in st.users
    ensures r.Success? ==> r.value == st.users[id]
    ensures r.Failure? ==> r.error == NoRows
  {
    if id in st.users then Success(st.users[id]) else Failure(NoRows)
  }

  /** ListUsers: every user, ordered by id. */
  function ListUsers(st: Store): (out: seq<User>)
    ensures Valid(st) ==> forall k :: 0 <= k < |out| ==> out[k].id in st.users && st.users[out[k].id] == out[k]
    ensures Valid(st) ==> forall id :: id in st.users ==> st.users[id] in out
    ensures Valid(st) ==> forall a, b :: 0 <= a < b < |out| ==> out[a].id < out[b].id
  {
    var out := ValuesBetween(st.users, 1, st.nextId);
    ghost var ks := KeysBetween(st.users, 1, st.nextId);
    assert Valid(st) ==> forall k :: 0 <= k < |out| ==> out[k].id == ks[k];
    out
  }

  /** The first user in `us` with the given email. */
  function FindEmail(us: seq<User>, email: String): (r: Result<User, DbError>)
    ensures r.Success? ==> r.value in us && r.value.email == email
    ensures r.Failure? ==> r.error == NoRows && forall k :: 0 <= k < |us| ==> us[k].email != email
  {
    if us == [] then Failure(NoRows)
    else if us[0].email == email then Success(us[0])
    else FindEmail(us[1..], email)
  }

  /** GetUserByEmail: the user whose (unique) email matches, or NoRows. */
  function GetUserByEmail(st: Store, email: String): (r: Result<User, DbError>)
    ensures r.Failure? ==> r.error == NoRows
    ensures Valid(st) ==> (r.Success? <==> EmailTaken(st, email))
    ensures Valid(st) && r.Success? ==>
      r.value.email == email && r.value.id in st.users && st.users[r.value.id] == r.value
  {
    var us := ListUsers(st);
    var r := FindEmail(us, email);
    assert Valid(st) && EmailTaken(st, email) ==> r.Success? by {
      if Valid(st) && EmailTaken(st, email) {
        var id :| id in st.users && st.users[id].email == email;
        assert st.users[id] in us;
      }
    }
    r
  }

  /** SetPasswordHash: an UPDATE by id; an unknown id changes nothing. */
  function SetPasswordHash(st: Store, id: int, newHash: String): (r: Store)
    ensures r.users.Keys == st.users.Keys
    ensures id in st.users ==> r.users[id] == st.users[id].(passwordHash := newHash)
    ensures forall o :: o in st.users && o != id ==> r.users[o] == st.users[o]
    ensures id !in st.users ==> r == st
    ensures r.sessions == st.sessions && r.reserved == st.reserved && r.nextId == st.nextId
    ensures Valid(st) ==> Valid(r)
  {
    if id in st.users then st.(users := st.users[id := st.users[id].(passwordHash := newHash)]) else st
  }

  /** SetAdmin: an UPDATE of the admin flag by id; an unknown id changes nothing. */
  function SetAdmin(st: Store, id: int, isAdmin: bool): (r: Store)
    ensures r.users.Keys == st.users.Keys
    ensures id in st.users ==> r.users[id] == st.users[id].(isAdmin := isAdmin)
    ensures forall o :: o in st.users && o != id ==> r.users[o] == st.users[o]
    ensures id !in st.users ==> r == st
    ensures r.sessions == st.sessions && r.reserved == st.reserved && r.nextId == st.nextId
    ensures Valid(st) ==> Valid(r)
  {
    if id in st.users then st.(users := st.users[id := st.users[id].(isAdmin := isAdmin)]) else st
  }

  /** UpdateEmail: an UPDATE of the email by id, subject to the unique index. */
  function UpdateEmail(st: Store, id: int, email: String): (r: Step<()>)
    ensures r.result.Failure? <==>
      id in st.users && exists o :: o in st.users && o != id && st.users[o].email == email
    ensures r.result.Failure? ==> r.store == st && r.result.error == UniqueConstraint("users.email")
    ensures r.result.Success? && id in st.users ==> r.store.users == st.users[id := st.users[id].(email := email)]
    ensures id !in st.users ==> r.store == st
    ensures r.store.sessions == st.sessions && r.store.reserved == st.reserved
    ensures Valid(st) ==> Valid(r.store)
  {
    if id !in st.users then Step(st, Success(()))
    else if exists o :: o in st.users && o != id && st.users[o].email == email then
      Step(st, Failure(UniqueConstraint("users.email")))
    else
      Step(st.(users := st.users[id := st.users[id].(email := email)]), Success(()))
  }

  /**
   * DeleteUser: in one transaction, delete the user's sessions and then the user.
   * An unknown id deletes nothing.
   */
  function DeleteUser(st: Store, id: int): (r: Store)
    ensures r.users.Keys == st.users.Keys - {id}
    ensures forall o :: o in r.users ==> r.users[o] == st.users[o]
    ensures forall t :: t in r.sessions <==> t in st.sessions && st.sessions[t].userId != id
    ensures forall t :: t in r.sessions ==> r.sessions[t] == st.sessions[t]
    ensures r.reserved == st.reserved && r.nextId == st.nextId
    ensures Valid(st) ==> Valid(r)
  {
    st.(sessions := map t | t in st.sessions && st.sessions[t].userId != id :: st.sessions[t],
        users := st.users - {id})
  }

  /** CountOtherAdmins: the number of users with the admin flag whose id is not `excludeId`. */
  function CountOtherAdmins(st: Store, excludeId: int): (n: nat)
    ensures n == 0 <==> AdminIds(st) <= {excludeId}
    ensures n <= |AdminIds(st)|
  {
    var others := AdminIds(st) - {excludeId};
    assert others <= AdminIds(st);
    assert others == {} ==> AdminIds(st) <= {excludeId};
    |others|
  }

  // ---------------------------------------------------------------------------
  // Sessions
  // ---------------------------------------------------------------------------

  /** NewToken: the lower-case hex encoding of 32 random bytes; `None` when the source of randomness fails. */
  function NewToken(entropy: Option<Entropy>): (r: Result<String, DbError>)
    ensures r.Failure? <==> entropy.None?
    ensures r.Failure? ==> r.error == EntropyUnavailable
    ensures r.Success? ==> |r.value| == 64 && Hex.IsLowerHex(r.value)
    ensures r.Success? ==> Hex.Decode(r.value) == Some(entropy.value)
  {
    match entropy
    case None => Failure(EntropyUnavailable)
    case Some(b) =>
      Hex.DecodeEncode(b);
      Success(Hex.Encode(b))
  }

  /** CreateSession: a fresh token, bound to `userId`, expiring `ttl` seconds after `now`. */
  function CreateSession(st: Store, userId: int, ttl: int, now: int, entropy: Option<Entropy>): (r: Step<Session>)
    ensures r.result.Failure? ==> r.store == st
    ensures entropy.None? ==> r.result == Failure(EntropyUnavailable)
    ensures r.result.Success? ==>
      var s := r.result.value;
      && s.userId == userId && s.expiresAt == now + ttl && s.createdAt == now
      && s.token == Hex.Encode(entropy.value) && s.token !in st.sessions
      && r.store == st.(sessions := st.sessions[s.token := s])
    ensures entropy.Some? && Hex.Encode(entropy.value) !in st.sessions ==> r.result.Success?
    ensures Valid(st) ==> Valid(r.store)
  {
    match NewToken(entropy)
    case Failure(e) => Step(st, Failure(e))
    case Success(tok) =>
      if tok in st.sessions then Step(st, Failure(UniqueConstraint("sessions.token")))
      else
        var s := Session(tok, userId, now + ttl, now);
        Step(st.(sessions := st.sessions[tok := s]), Success(s))
  }

  /** DeleteSession: removes the session with that token, if any. */
  function DeleteSession(st: Store, token: String): (r: Store)
    ensures r.sessions.Keys == st.sessions.Keys - {token}
    ensures forall t :: t in r.sessions ==> r.sessions[t] == st.sessions[t]
    ensures r.users == st.users && r.reserved == st.reserved && r.nextId == st.nextId
    ensures Valid(st) ==> Valid(r)
  {
    st.(sessions := st.sessions - {token})
  }

  /** The housekeeping delete that precedes every resolution: drops sessions with `expires_at < now`. */
  function Sweep(st: Store, now: int): (r: Store)
    ensures forall t :: t in r.sessions <==> t in st.sessions && st.sessions[t].expiresAt >= now
    ensures forall t :: t in r.sessions ==> r.sessions[t] == st.sessions[t]
    ensures r.users == st.users && r.reserved == st.reserved && r.nextId == st.nextId
    ensures Valid(st) ==> Valid(r)
  {
    st.(sessions := map t | t in st.sessions && !(st.sessions[t].expiresAt < now) :: st.sessions[t])
  }

  /**
   * GetUserBySession: sweep expired sessions (a failure of the sweep, `sweepFails`,
   * is ignored), then join the token's session with its user where `expires_at > now`.
   */
  function GetUserBySession(st: Store, token: String, now: int, sweepFails: bool): (r: Step<User>)
    ensures r.result.Success? <==> Live(st, token, now)
    ensures r.result.Success? ==> r.result.value == st.users[st.sessions[token].userId]
    ensures r.result.Failure? ==> r.result.error == NoRows
    ensures r.store == st || r.store == Sweep(st, now)
    ensures r.store.users == st.users && r.store.reserved == st.reserved
    ensures Valid(st) ==> Valid(r.store)
  {
    var swept := if sweepFails then st else Sweep(st, now);
    if Live(swept, token, now) then
      Step(swept, Success(swept.users[swept.sessions[token].userId]))
    else
      Step(swept, Failure(NoRows))
  }

  // ---------------------------------------------------------------------------
  // Email reservations
  // ---------------------------------------------------------------------------

  /** IsEmailReserved: whether the email has a row, and who reserved it. */
  function IsEmailReserved(st: Store, email: String): (r: (bool, Option<int>))
    ensures r.0 <==> email in st.reserved
    ensures r.0 ==> r.1 == st.reserved[email]
    ensures !r.0 ==> r.1 == None
  {
    if email in st.reserved then (true, st.reserved[email]) else (false, None)
  }

  /** ReserveEmail: INSERT OR IGNORE, so the first reservation of an email wins. */
  function ReserveEmail(st: Store, email: String, reservedBy: Option<int>): (r: Store)
    ensures email in r.reserved
    ensures email in st.reserved ==> r == st
    ensures email !in st.reserved ==> r.reserved == st.reserved[email := reservedBy]
    ensures r.users == st.users && r.sessions == st.sessions && r.nextId == st.nextId
    ensures Valid(st) ==> Valid(r)
  {
    if email in st.reserved then st else st.(reserved := st.reserved[email := reservedBy])
  }

  // ---------------------------------------------------------------------------
  // Lemmas relating several transitions
  // ---------------------------------------------------------------------------

  /**
   * The first user becomes the only admin; a later user adds no admin.
   */
  lemma CreateUserAdmins(st: Store, email: String, hash: String, now: int)
    requires Valid(st)
    requires CreateUser(st, email, hash, now).result.Success?
    ensures var r := CreateUser(st, email, hash, now);
      AdminIds(r.store) == (if st.users == map[] then {r.result.value.id} else AdminIds(st))
  {
    var r := CreateUser(st, email, hash, now);
    var u := r.result.value;
    assert u.id !in st.users;
    if st.users == map[] {
      assert AdminIds(r.store) == {u.id};
    } else {
      assert !u.isAdmin;
      assert AdminIds(r.store) == AdminIds(st);
    }
  }

  /** Registering an email twice: the second attempt conflicts and rolls back. */
  lemma CreateUserTwiceConflicts(st: Store, email: String, h1: String, h2: String, t1: int, t2: int)
    requires CreateUser(st, email, h1, t1).result.Success?
    ensures var st1 := CreateUser(st, email, h1, t1).store;
      CreateUser(st1, email, h2, t2) == Step(st1, Failure(UniqueConstraint("users.email")))
  {
    var r := CreateUser(st, email, h1, t1);
    var u := r.result.value;
    assert u.id in r.store.users && r.store.users[u.id].email == email;
  }

  /** Demoting `x` leaves exactly the other admins, so CountOtherAdmins predicts the admin count after it. */
  lemma CountOtherAdminsAfterDemotion(st: Store, x: int)
    ensures AdminIds(SetAdmin(st, x, false)) == AdminIds(st) - {x}
    ensures |AdminIds(SetAdmin(st, x, false))| == CountOtherAdmins(st, x)
  {
    var r := SetAdmin(st, x, false);
    forall id | id in AdminIds(r)
      ensures id in AdminIds(st) - {x}
    {
      assert id != x;
    }
  }

  /** Deleting a session is idempotent. */
  lemma DeleteSessionIdempotent(st: Store, token: String)
    ensures DeleteSession(DeleteSession(st, token), token) == DeleteSession(st, token)
  {
    assert DeleteSession(st, token).sessions - {token} == DeleteSession(st, token).sessions;
  }

  /** A deleted user's sessions no longer resolve and the user's email no longer looks up. */
  lemma DeleteUserRevokes(st: Store, id: int, token: String, now: int, sweepFails: bool)
    requires Valid(st)
    requires id in st.users
    ensures GetUserBySession(DeleteUser(st, id), token, now, sweepFails).result.Success? ==>
      GetUserBySession(DeleteUser(st, id), token, now, sweepFails).result.value.id != id
    ensures GetUserByEmail(DeleteUser(st, id), st.users[id].email).Failure?
  {
    var r := DeleteUser(st, id);
    var email := st.users[id].email;
    var res := GetUserBySession(r, token, now, sweepFails).result;
    if res.Success? {
      var uid := r.sessions[token].userId;
      assert uid in r.users;
      assert r.users[uid] == st.users[uid];
    }
  }

  /**
   * A session created at `t0` with time-to-live `ttl` resolves to its user at
   * every `now` before `t0 + ttl` and at no `now` from `t0 + ttl` on.
   */
  lemma SessionLifetime(st: Store, userId: int, ttl: int, t0: int, entropy: Option<Entropy>,
                        now: int, sweepFails: bool)
    requires Valid(st) && userId in st.users
    requires CreateSession(st, userId, ttl, t0, entropy).result.Success?
    ensures var c := CreateSession(st, userId, ttl, t0, entropy);
      var r := GetUserBySession(c.store, c.result.value.token, now, sweepFails);
      (r.result.Success? <==> now < t0 + ttl)
      && (r.result.Success? ==> r.result.value == st.users[userId])
  {
  }

  /**
   * The sweep deletes `expires_at < now` but resolution needs `expires_at > now`:
   * a session expiring exactly now survives the sweep and still does not resolve.
   */
  lemma ExpiringNowKeptButDead(st: Store, token: String, now: int, sweepFails: bool)
    requires token in st.sessions && st.sessions[token].expiresAt == now
    ensures token in Sweep(st, now).sessions
    ensures GetUserBySession(st, token, now, sweepFails).result == Failure(NoRows)
  {
  }

  /** After logout deletes a token it never resolves again. */
  lemma DeletedTokenNeverResolves(st: Store, token: String, now: int, sweepFails: bool)
    ensures GetUserBySession(DeleteSession(st, token), token, now, sweepFails).result == Failure(NoRows)
  {
  }

  /** ReserveEmail is idempotent, and a later reservation does not replace the first owner. */
  lemma ReserveEmailFirstWins(st: Store, email: String, a: Option<int>, b: Option<int>)
    requires email !in st.reserved
    ensures IsEmailReserved(ReserveEmail(ReserveEmail(st, email, a), email, b), email) == (true, a)
    ensures ReserveEmail(ReserveEmail(st, email, a), email, a) == ReserveEmail(st, email, a)
  {
  }
}

=== FILE: hex.dfy ===
/** Go's `encoding/hex`: lower-case encoding of bytes and its inverse. */
module Hex {

  import opened Wrappers
  import opened Text

  newtype byte = x: int | 0 <= x < 256

  /** A character of the lower-case hexadecimal alphabet [0-9a-f]. */
  predicate IsLowerHexDigit(c: char) {
    ('0' <= c <= '9') || ('a' <= c <= 'f')
  }

  predicate IsLowerHex(s: String) {
    forall i :: 0 <= i < |s| ==> IsLowerHexDigit(s[i])
  }

  /** The digit for a nibble `0 <= k < 16`. */
  function HexDigit(k: int): (c: char)
    requires 0 <= k < 16
    ensures IsLowerHexDigit(c)
  {
    if k < 10 then ('0' as int + k) as char else ('a' as int + k - 10) as char
  }

  /** `hex.fromHexChar`: accepts both cases, as `hex.DecodeString` does. */
  function DigitValue(c: char): (v: Option<int>)
    ensures v.Some? ==> 0 <= v.value < 16
  {
    if '0' <= c <= '9' then Some(c as int - '0' as int)
    else if 'a' <= c <= 'f' then Some(c as int - 'a' as int + 10)
    else if 'A' <= c <= 'F' then Some(c as int - 'A' as int + 10)
    else None
  }

  /** `hex.EncodeToString`: two lower-case digits per byte, high nibble first. */
  function Encode(bs: seq<byte>): (r: String)
    ensures |r| == 2 * |bs|
    ensures IsLowerHex(r)
  {
    if bs == [] then []
    else [HexDigit(bs[0] as int / 16), HexDigit(bs[0] as int % 16)] + Encode(bs[1..])
  }

  /** `hex.DecodeString`: `None` for an odd length or a non-hex character. */
  function Decode(s: String): (r: Option<seq<byte>>)
    ensures r.Some? ==> 2 * |r.value| == |s|
    decreases |s|
  {
    if s == [] then Some([])
    else if |s| == 1 then None
    else
      match (DigitValue(s[0]), DigitValue(s[1]), Decode(s[2..]))
      case (Some(hi), Some(lo), Some(rest)) => Some([(hi * 16 + lo) as byte] + rest)
      case _ => None
  }

  /** Decoding undoes encoding, so distinct byte strings give distinct tokens. */
  lemma {:induction false} DecodeEncode(bs: seq<byte>)
    ensures Decode(Encode(bs)) == Some(bs)
  {
    if bs != [] {
      var b := bs[0] as int;
      var e := Encode(bs);
      assert e[2..] == Encode(bs[1..]);
      assert DigitValue(e[0]) == Some(b / 16);
      assert DigitValue(e[1]) == Some(b % 16);
      DecodeEncode(bs[1..]);
      assert bs == [bs[0]] + bs[1..];
    }
  }

  lemma EncodeInjective(a: seq<byte>, b: seq<byte>)
    requires Encode(a) == Encode(b)
    ensures a == b
  {
    DecodeEncode(a);
    DecodeEncode(b);
  }
}

=== FILE: ids.dfy ===
/** Tables keyed by integer ids, read back in ascending id order (`ORDER BY id`). */
module Ids {

  /** The keys of `m` in `[lo, hi)`, ascending. */
  function KeysBetween<V>(m: map<int, V>, lo: int, hi: int): (ks: seq<int>)
    ensures forall k :: 0 <= k < |ks| ==> ks[k] in m && lo <= ks[k] < hi
    ensures forall i :: i in m && lo <= i < hi ==> i in ks
    ensures forall a, b :: 0 <= a < b < |ks| ==> ks[a] < ks[b]
    decreases hi - lo
  {
    if lo >= hi then []
    else (if lo in m then [lo] else []) + KeysBetween(m, lo + 1, hi)
  }

  /** The values of `m` under the keys in `[lo, hi)`, in key order. */
  function ValuesBetween<V>(m: map<int, V>, lo: int, hi: int): (out: seq<V>)
    ensures |out| == |KeysBetween(m, lo, hi)|
    ensures forall k :: 0 <= k < |out| ==> out[k] == m[KeysBetween(m, lo, hi)[k]]
    ensures forall i :: i in m && lo <= i < hi ==> m[i] in out
  {
    var ks := KeysBetween(m, lo, hi);
    var out := seq(|ks|, k requires 0 <= k < |ks| => m[ks[k]]);
    forall i | i in m && lo <= i < hi
      ensures m[i] in out
    {
      var k :| 0 <= k < |ks| && ks[k] == i;
      assert out[k] == m[i];
    }
    out
  }
}

=== FILE: match_http.dfy ===
/**
 * The match routes (internal/matches/http.go): conversion of stored rows to the
 * API record (`toAPI`), of a JSON request with optional fields to a `Match`
 * (`toDomain`), and the status each route answers with. The `:id` path segment
 * goes through `strconv.ParseInt` with its error ignored.
 */
module MatchHttp {

  import opened Wrappers
  import opened Text
  import opened Strconv
  import opened MatchModel
  import opened MatchRepository

  /** createOrUpdateReq: every field may be absent from the JSON body. */
  datatype MatchRequest = MatchRequest(
    dateRaw: Option<String>,
    timeRaw: Option<String>,
    endTimeRaw: Option<String>,
    weekday: Option<String>,
    league: Option<String>,
    team: Option<String>,
    opponent: Option<String>,
    homeTeam: Option<String>,
    awayTeam: Option<String>,
    venue: Option<String>,
    court: Option<String>,
    city: Option<String>,
    gatherTime: Option<String>,
    gatherPlace: Option<String>,
    matchNumber: Option<String>,
    referees: Option<String>,
    notes: Option<String>,
    played: Option<bool>,
    goalsFor: Option<int>,
    goalsAgainst: Option<int>,
    playerNotes: Option<String>,
    startIso: Option<String>,
    endIso: Option<String>)

  /** The JSON body `{}`. */
  const EmptyRequest: MatchRequest := MatchRequest(None, None, None, None, None, None, None, None, None, None, None,
                                                   None, None, None, None, None, None, None, None, None, None, None, None)

  function RequestText(q: MatchRequest, f: TextField): Option<String> {
    match f
    case DateRaw => q.dateRaw
    case TimeRaw => q.timeRaw
    case EndTimeRaw => q.endTimeRaw
    case Weekday => q.weekday
    case League => q.league
    case Team => q.team
    case Opponent => q.opponent
    case HomeTeam => q.homeTeam
    case AwayTeam => q.awayTeam
    case Venue => q.venue
    case Court => q.court
    case City => q.city
    case GatherTime => q.gatherTime
    case GatherPlace => q.gatherPlace
    case MatchNumber => q.matchNumber
    case Referees => q.referees
    case Notes => q.notes
    case PlayerNotes => q.playerNotes
  }

  datatype MatchBody = ErrorBody(error: String) | One(m: Match) | Many(ms: seq<Match>) | NoBody

  datatype MatchResponse = MatchResponse(status: int, body: MatchBody, table: MatchTable)

  /** toAPI: NULL columns read as "", 0 and not played; the id and times are copied. */
  function ToAPI(r: DbMatch): (m: Match)
    ensures m.id == r.id && m.startIso == r.startIso && m.endIso == r.endIso
    ensures forall f :: FieldText(m, f) == Sval(ColumnText(r, f))
    ensures m.played == Bval(r.played)
    ensures m.goalsFor == Ival(r.goalsFor) && m.goalsAgainst == Ival(r.goalsAgainst)
  {
    Match(r.id, r.startIso, r.endIso,
          Sval(r.dateRaw), Sval(r.timeRaw), Sval(r.endTimeRaw), Sval(r.weekday), Sval(r.league),
          Sval(r.team), Sval(r.opponent), Sval(r.homeTeam), Sval(r.awayTeam), Sval(r.venue),
          Sval(r.court), Sval(r.city), Sval(r.gatherTime), Sval(r.gatherPlace), Sval(r.matchNumber),
          Sval(r.referees), Sval(r.notes), Bval(r.played), Ival(r.goalsFor), Ival(r.goalsAgainst),
          Sval(r.playerNotes))
  }

  /** toAPIList: element-wise, same length and order. */
  function ToAPIList(rows: seq<DbMatch>): (ms: seq<Match>)
    ensures |ms| == |rows|
    ensures forall k :: 0 <= k < |rows| ==> ms[k] == ToAPI(rows[k])
  {
    seq(|rows|, k requires 0 <= k < |rows| => ToAPI(rows[k]))
  }

  /**
   * toDomain: an absent field becomes its zero value ("", false, 0); the times are
   * passed through as given. Its local `val` is `sval` and its `pi` is `ival`.
   */
  function ToDomain(q: MatchRequest): (m: Match)
    ensures m.id == 0 && m.startIso == q.startIso && m.endIso == q.endIso
    ensures forall f :: FieldText(m, f) == (if RequestText(q, f).Some? then RequestText(q, f).value else "")
    ensures m.played <==> q.played == Some(true)
    ensures m.goalsFor == (if q.goalsFor.Some? then q.goalsFor.value else 0)
    ensures m.goalsAgainst == (if q.goalsAgainst.Some? then q.goalsAgainst.value else 0)
  {
    Match(0, q.startIso, q.endIso,
          Sval(q.dateRaw), Sval(q.timeRaw), Sval(q.endTimeRaw), Sval(q.weekday), Sval(q.league),
          Sval(q.team), Sval(q.opponent), Sval(q.homeTeam), Sval(q.awayTeam), Sval(q.venue),
          Sval(q.court), Sval(q.city), Sval(q.gatherTime), Sval(q.gatherPlace), Sval(q.matchNumber),
          Sval(q.referees), Sval(q.notes), q.played == Some(true), Ival(q.goalsFor), Ival(q.goalsAgainst),
          Sval(q.playerNotes))
  }

  /** The id a route reads from its `:id` segment; a parse error leaves whatever ParseInt returned. */
  function RouteId(param: String): (id: int)
    ensures MinInt64 <= id <= MaxInt64
    ensures WellFormed(param) ==> id == Clamp(Value(param))
  {
    ParseInt(param).value
  }

  // ---------------------------------------------------------------------------
  // Routes
  // ---------------------------------------------------------------------------

  /** GET /api/matches. */
  function ListRoute(t: MatchTable): (r: MatchResponse)
    ensures r.status == 200 && r.table == t
    ensures r.body == Many(ToAPIList(List(t)))
  {
    MatchResponse(200, Many(ToAPIList(List(t))), t)
  }

  /** GET /api/matches/:id: every lookup failure is a 404. */
  function GetRoute(t: MatchTable, param: String): (r: MatchResponse)
    ensures r.table == t
    ensures r.status == 200 <==> RouteId(param) in t.rows
    ensures r.status == 200 ==> r.body == One(ToAPI(t.rows[RouteId(param)]))
    ensures r.status != 200 ==> r == MatchResponse(404, ErrorBody("not found"), t)
  {
    match Get(t, RouteId(param))
    case Failure(_) => MatchResponse(404, ErrorBody("not found"), t)
    case Success(row) => MatchResponse(200, One(ToAPI(row)), t)
  }

  /** POST /api/matches: 400 for a body that is not JSON, else 201 with the stored match. */
  function CreateRoute(t: MatchTable, req: Option<MatchRequest>, zone: Zone): (r: MatchResponse)
    ensures req.None? ==> r == MatchResponse(400, ErrorBody("bad json"), t)
    ensures req.Some? ==>
      var (t', row) := Create(t, ToDomain(req.value), zone);
      r == MatchResponse(201, One(ToAPI(row)), t')
  {
    match req
    case None => MatchResponse(400, ErrorBody("bad json"), t)
    case Some(q) =>
      var (t', row) := Create(t, ToDomain(q), zone);
      MatchResponse(201, One(ToAPI(row)), t')
  }

  /** PATCH /api/matches/:id: 400 for bad JSON, 500 when the update fails (an unknown id included). */
  function PatchRoute(t: MatchTable, param: String, req: Option<MatchRequest>, zone: Zone): (r: MatchResponse)
    ensures r.status in {200, 400, 500}
    ensures r.status != 200 ==> r.table == t
    ensures r.status == 500 <==> req.Some? && RouteId(param) !in t.rows
    ensures r.status == 200 <==> req.Some? && RouteId(param) in t.rows
    ensures r.status == 200 ==>
      && req.Some?
      && var u := Update(t, RouteId(param), ToDomain(req.value), zone);
         r.table == u.0 && r.body == One(ToAPI(u.1.value))
  {
    var id := RouteId(param);
    match req
    case None => MatchResponse(400, ErrorBody("bad json"), t)
    case Some(q) =>
      var (t', res) := Update(t, id, ToDomain(q), zone);
      match res
      case Failure(e) => MatchResponse(500, ErrorBody(e), t)
      case Success(row) => MatchResponse(200, One(ToAPI(row)), t')
  }

  /** DELETE /api/matches/:id: always 204, whether or not the row existed. */
  function DeleteRoute(t: MatchTable, param: String): (r: MatchResponse)
    ensures r.status == 204 && r.body == NoBody
    ensures r.table == Delete(t, RouteId(param))
  {
    MatchResponse(204, NoBody, Delete(t, RouteId(param)))
  }

  // ---------------------------------------------------------------------------
  // Lemmas
  // ---------------------------------------------------------------------------

  /** Reading back a freshly created row gives the record it was made from, with its new id and times. */
  lemma ToAPINewRow(m: Match, zone: Zone, id: int)
    ensures ToAPI(NewRow(m, zone, id)) == m.(id := id, startIso := CreateStart(m, zone), endIso := CreateEnd(m, zone))
  {
    StoreReadRoundTrip(m.dateRaw, m.goalsFor, m.played);
  }

  /** toDomain of `{}` is the zero match. */
  lemma ToDomainEmpty()
    ensures ToDomain(EmptyRequest) == Blank
  {
  }

  /**
   * A match created through POST is served by GET at the id it was given, written
   * in decimal, with exactly the fields that were posted.
   */
  lemma CreateThenGetRoute(t: MatchTable, q: MatchRequest, zone: Zone)
    requires ValidTable(t) && t.nextId <= MaxInt64
    ensures var c := CreateRoute(t, Some(q), zone);
      && c.status == 201 && c.body.One?
      && GetRoute(c.table, FormatInt(c.body.m.id)) == MatchResponse(200, c.body, c.table)
      && c.body.m == ToDomain(q).(id := t.nextId, startIso := CreateStart(ToDomain(q), zone),
                                  endIso := CreateEnd(ToDomain(q), zone))
  {
    ParseFormat(t.nextId);
    ToAPINewRow(ToDomain(q), zone, t.nextId);
  }

  /** PATCH with `{}` on an existing match answers 200 with the match unchanged and changes nothing. */
  lemma PatchEmptyIsNoop(t: MatchTable, id: int, zone: Zone)
    requires ValidTable(t) && id in t.rows && MinInt64 <= id <= MaxInt64
    ensures PatchRoute(t, FormatInt(id), Some(EmptyRequest), zone) == MatchResponse(200, One(ToAPI(t.rows[id])), t)
  {
    ParseFormat(id);
    ToDomainEmpty();
    UpdateBlankIsNoop(t, id, zone);
  }

  /** PATCH of an id that does not exist is a 500 (not a 404) and changes nothing. */
  lemma PatchUnknownIs500(t: MatchTable, param: String, q: MatchRequest, zone: Zone)
    requires RouteId(param) !in t.rows
    ensures PatchRoute(t, param, Some(q), zone) ==
      MatchResponse(500, ErrorBody("get: sql: no rows in result set"), t)
  {
  }

  /** After DELETE, GET of the same path is a 404 and PATCH a 500. */
  lemma DeleteThenGone(t: MatchTable, param: String, q: MatchRequest, zone: Zone)
    ensures var t' := DeleteRoute(t, param).table;
      GetRoute(t', param).status == 404 && PatchRoute(t', param, Some(q), zone).status == 500
  {
  }

  /** A path segment that is not a number reads as id 0, which no stored match has. */
  lemma MalformedIdNotFound(t: MatchTable, param: String)
    requires ValidTable(t) && ParseInt(param).err == Some(ErrSyntax)
    ensures GetRoute(t, param) == MatchResponse(404, ErrorBody("not found"), t)
  {
  }
}

=== FILE: match_import.dfy ===
/**
 * The spreadsheet importer (internal/matches/import.go): header normalisation
 * with Swedish aliases, the mapping of one row to a `Match`, and the CSV / XLSX
 * front ends. Tokenising CSV text and decoding XLSX files are done by library
 * code, so both enter as reader functions; what the importer itself decides
 * (delimiter, empty input, header row, blank rows) is modelled exactly.
 */
module MatchImport {

  import opened Wrappers
  import opened Text
  import opened Strconv
  import opened MatchModel

  // ---------------------------------------------------------------------------
  // Headers
  // ---------------------------------------------------------------------------

  /** The characters a normalised header keeps. */
  predicate HeaderChar(c: char) {
    IsLetter(c) || IsDigit(c)
  }

  /** å and ä fold to a, ö to o; every other character is kept as it is. */
  function FoldSwedish(c: char): char {
    if c == '\U{E5}' || c == '\U{E4}' then 'a' else if c == '\U{F6}' then 'o' else c
  }

  /** A header that normalisation leaves alone: lower-case letters and digits, with no å, ä or ö. */
  predicate Plain(k: String) {
    forall i :: 0 <= i < |k| ==> HeaderChar(k[i]) && !IsUpper(k[i]) && FoldSwedish(k[i]) == k[i]
  }

  /** Keeps the letters and digits of `k`, folding the Swedish vowels. */
  function KeepAndFold(k: String): (r: String)
    ensures |r| <= |k|
    ensures forall i :: 0 <= i < |r| ==> HeaderChar(r[i]) && FoldSwedish(r[i]) == r[i]
    ensures (forall i :: 0 <= i < |k| ==> !IsUpper(k[i])) ==> Plain(r)
    ensures Plain(k) ==> r == k
  {
    if k == [] then []
    else
      var rest := KeepAndFold(k[1..]);
      if HeaderChar(k[0]) then [FoldSwedish(k[0])] + rest else rest
  }

  /** The field keys the Swedish column names are renamed to. */
  const AliasTargets: set<String> := {
    "dateraw", "timeraw", "endtimeraw", "venue", "city", "league", "court", "gathertime",
    "gatherplace", "notes", "played", "goalsfor", "goalsagainst", "topscorerteam",
    "topscoreropponent", "hometeam", "awayteam", "matchnumber", "weekday", "result"}

  /** The Swedish column names and their field keys; any other key stays as it is. */
  function Alias(k: String): (a: String)
    ensures a == k || a in AliasTargets
    ensures k in AliasTargets ==> a == k
  {
    match k
    case "datum" => "dateraw"
    case "starttid" | "tid" => "timeraw"
    case "sluttid" => "endtimeraw"
    case "hall" | "hallplats" | "plats" | "spelplats" => "venue"
    case "stad" => "city"
    case "serie" | "tavling" => "league"
    case "plan" => "court"
    case "samlingstid" => "gathertime"
    case "samlingplats" => "gatherplace"
    case "noteringar" | "notis" => "notes"
    case "spelad" => "played"
    case "malfor" | "malhemma" => "goalsfor"
    case "malmot" | "malborta" => "goalsagainst"
    case "toppvart" | "toppskyttlag" => "topscorerteam"
    case "toppmot" | "toppskyttmot" => "topscoreropponent"
    case "hemmalag" => "hometeam"
    case "bortalag" => "awayteam"
    case "matchnr" => "matchnumber"
    case "dag" => "weekday"
    case "resultat" => "result"
    case _ => k
  }

  /** The key of one column title: trimmed, lower-cased, letters and digits only, aliased. */
  function NormHeader(h: String): (k: String)
    ensures Plain(k)
    ensures Alias(k) == k
  {
    var k := KeepAndFold(ToLower(TrimSpace(h)));
    TargetsArePlain();
    Alias(k)
  }

  /** normHeaders: one key per column index. */
  function NormHeaders(hdr: seq<String>): (m: map<int, String>)
    ensures forall i :: i in m <==> 0 <= i < |hdr|
    ensures forall i :: 0 <= i < |hdr| ==> m[i] == NormHeader(hdr[i])
  {
    map i | 0 <= i < |hdr| :: NormHeader(hdr[i])
  }

  // ---------------------------------------------------------------------------
  // Cells
  // ---------------------------------------------------------------------------

  /** The lowest column index below `|row|` whose header key is `key`. */
  function ColumnIndex(h: map<int, String>, row: seq<String>, key: String, from: nat): (r: Option<nat>)
    ensures r.Some? ==> from <= r.value < |row| && r.value in h && h[r.value] == key
    ensures r.Some? ==> forall j :: from <= j < r.value && j in h ==> h[j] != key
    ensures r.None? ==> forall j :: from <= j < |row| && j in h ==> h[j] != key
    decreases |row| - from
  {
    if from >= |row| then None
    else if from in h && h[from] == key then Some(from)
    else ColumnIndex(h, row, key, from + 1)
  }

  /**
   * get: the trimmed cell of the column keyed `key`, or "" when no column below
   * `|row|` has that key. With two such columns Go's map order picks either;
   * the model takes the leftmost.
   */
  function Cell(h: map<int, String>, row: seq<String>, key: String): (r: String)
    ensures (forall j :: 0 <= j < |row| && j in h ==> h[j] != key) ==> r == ""
    ensures r != "" ==> exists j :: 0 <= j < |row| && j in h && h[j] == key && r == TrimSpace(row[j])
    ensures Trimmed(r)
  {
    match ColumnIndex(h, row, key, 0)
    case None => ""
    case Some(j) => TrimSpace(row[j])
  }

  /** atoi: "" is 0, otherwise ParseInt with its error ignored. */
  function Atoi(s: String): (v: int)
    ensures MinInt64 <= v <= MaxInt64
    ensures WellFormed(s) ==> v == Clamp(Value(s))
    ensures ParseInt(s).err == Some(ErrSyntax) ==> v == 0
  {
    if s == "" then 0 else ParseInt(s).value
  }

  /** The answers atob accepts as yes. */
  const YesWords: set<String> := {"1", "true", "ja", "yes", "y"}

  /** atob: yes when the trimmed, lower-cased text is one of the yes words. */
  function Atob(s: String): (b: bool)
    ensures b <==> ToLower(TrimSpace(s)) in YesWords
  {
    ToLower(TrimSpace(s)) in YesWords
  }

  /** The venue: the text before the first comma, trimmed, or the whole cell without a comma. */
  function VenueOf(raw: String): (v: String)
    ensures ',' !in raw ==> v == raw
    ensures ',' in raw ==> v == TrimSpace(raw[..IndexOf(raw, ',')])
  {
    match SplitFirst(raw, ',')
    case None => raw
    case Some((before, _)) => TrimSpace(before)
  }

  /** The city: an explicit city cell, else the non-empty trimmed text after the venue's first comma. */
  function CityOf(city: String, venueRaw: String): (c: String)
    ensures city != "" ==> c == city
    ensures city == "" && ',' !in venueRaw ==> c == ""
    ensures city == "" && ',' in venueRaw ==> c == TrimSpace(venueRaw[IndexOf(venueRaw, ',') + 1..])
  {
    if city != "" then city
    else
      match SplitFirst(venueRaw, ',')
      case None => city
      case Some((_, after)) => if TrimSpace(after) != "" then TrimSpace(after) else city
  }

  /** eq: equal ignoring case and surrounding white space. */
  predicate SameTeam(a: String, b: String) {
    EqualFold(TrimSpace(a), TrimSpace(b))
  }

  /**
   * Our team and the opponent: when `ourTeam` names the home or the away side the
   * pair follows it; otherwise empty team/opponent cells fall back to home/away.
   */
  function Sides(home: String, away: String, team: String, opponent: String, ourTeam: String): (r: (String, String))
    ensures var (ht, at, ot) := (TrimSpace(home), TrimSpace(away), TrimSpace(ourTeam));
      && (ot != "" && SameTeam(ht, ot) ==> r == (ht, at))
      && (ot != "" && !SameTeam(ht, ot) && SameTeam(at, ot) ==> r == (at, ht))
      && (ot == "" || (!SameTeam(ht, ot) && !SameTeam(at, ot)) ==>
            r == (if team == "" then ht else team, if opponent == "" then at else opponent))
  {
    var ht := TrimSpace(home);
    var at := TrimSpace(away);
    var ot := TrimSpace(ourTeam);
    var fallback := (if team == "" then ht else team, if opponent == "" then at else opponent);
    if ot != "" then
      if SameTeam(ht, ot) then (ht, at)
      else if SameTeam(at, ot) then (at, ht)
      else fallback
    else fallback
  }

  /**
   * A result cell "a-b": the goals for and against when it holds a '-' and at
   * least one side reads as a positive number; "0-0" and text without a dash give none.
   */
  function ResultGoals(r: String): (g: Option<(int, int)>)
    ensures g.Some? ==> '-' in TrimSpace(r) && (g.value.0 > 0 || g.value.1 > 0)
    ensures '-' in TrimSpace(r) ==>
      var t := TrimSpace(r);
      var i := IndexOf(t, '-');
      var (gf, ga) := (Atoi(TrimSpace(t[..i])), Atoi(TrimSpace(t[i + 1..])));
      g == if gf > 0 || ga > 0 then Some((gf, ga)) else None
  {
    var t := TrimSpace(r);
    match SplitFirst(t, '-')
    case None => None
    case Some((a, b)) =>
      IndexOfPrefix(a, '-', b);
      assert t[..|a|] == a && t[|a| + 1..] == b;
      var gf := Atoi(TrimSpace(a));
      var ga := Atoi(TrimSpace(b));
      if gf > 0 || ga > 0 then Some((gf, ga)) else None
  }

  /** The cells of one data row that rowToMatch reads, each through its header key. */
  datatype RowCells = RowCells(
    dateRaw: String, timeRaw: String, endTimeRaw: String, weekday: String, league: String,
    team: String, opponent: String, homeTeam: String, awayTeam: String, venue: String,
    court: String, city: String, matchNumber: String, referees: String, notes: String,
    played: String, goalsFor: String, goalsAgainst: String, playerNotes: String,
    result: String, startIso: String, endIso: String)

  /** rowToMatch's `get` applied to every key it asks for. */
  function ReadCells(h: map<int, String>, row: seq<String>): (c: RowCells)
    ensures c.dateRaw == Cell(h, row, "dateraw") && c.timeRaw == Cell(h, row, "timeraw")
    ensures c.endTimeRaw == Cell(h, row, "endtimeraw") && c.weekday == Cell(h, row, "weekday")
    ensures c.league == Cell(h, row, "league") && c.team == Cell(h, row, "team")
    ensures c.opponent == Cell(h, row, "opponent") && c.homeTeam == Cell(h, row, "hometeam")
    ensures c.awayTeam == Cell(h, row, "awayteam") && c.venue == Cell(h, row, "venue")
    ensures c.court == Cell(h, row, "court") && c.city == Cell(h, row, "city")
    ensures c.matchNumber == Cell(h, row, "matchnumber") && c.referees == Cell(h, row, "referees")
    ensures c.notes == Cell(h, row, "notes") && c.played == Cell(h, row, "played")
    ensures c.goalsFor == Cell(h, row, "goalsfor") && c.goalsAgainst == Cell(h, row, "goalsagainst")
    ensures c.playerNotes == Cell(h, row, "playernotes") && c.result == Cell(h, row, "result")
    ensures c.startIso == Cell(h, row, "startiso") && c.endIso == Cell(h, row, "endiso")
  {
    RowCells(
      Cell(h, row, "dateraw"), Cell(h, row, "timeraw"), Cell(h, row, "endtimeraw"), Cell(h, row, "weekday"),
      Cell(h, row, "league"), Cell(h, row, "team"), Cell(h, row, "opponent"), Cell(h, row, "hometeam"),
      Cell(h, row, "awayteam"), Cell(h, row, "venue"), Cell(h, row, "court"), Cell(h, row, "city"),
      Cell(h, row, "matchnumber"), Cell(h, row, "referees"), Cell(h, row, "notes"), Cell(h, row, "played"),
      Cell(h, row, "goalsfor"), Cell(h, row, "goalsagainst"), Cell(h, row, "playernotes"),
      Cell(h, row, "result"), Cell(h, row, "startiso"), Cell(h, row, "endiso"))
  }

  /**
   * The match rowToMatch builds from the cells it read: text copied as it is,
   * venue and city split at the first comma, the sides by `ourTeam`, a result
   * overriding played and the goals, and the ISO times when present.
   */
  function CellsToMatch(c: RowCells, ourTeam: String): (m: Match)
    ensures m.id == 0 && m.gatherTime == "" && m.gatherPlace == ""
    ensures m.dateRaw == c.dateRaw && m.timeRaw == c.timeRaw && m.endTimeRaw == c.endTimeRaw
    ensures m.weekday == c.weekday && m.league == c.league && m.matchNumber == c.matchNumber
    ensures m.homeTeam == c.homeTeam && m.awayTeam == c.awayTeam && m.court == c.court
    ensures m.referees == c.referees && m.notes == c.notes && m.playerNotes == c.playerNotes
    ensures m.venue == VenueOf(c.venue) && m.city == CityOf(c.city, c.venue)
    ensures (m.team, m.opponent) == Sides(c.homeTeam, c.awayTeam, c.team, c.opponent, ourTeam)
    ensures ResultGoals(c.result).Some? ==> m.played && (m.goalsFor, m.goalsAgainst) == ResultGoals(c.result).value
    ensures ResultGoals(c.result).None? ==>
      m.played == Atob(c.played) && m.goalsFor == Atoi(c.goalsFor) && m.goalsAgainst == Atoi(c.goalsAgainst)
    ensures m.startIso == (if c.startIso != "" then Some(c.startIso) else None)
    ensures m.endIso == (if c.endIso != "" then Some(c.endIso) else None)
  {
    var (team, opponent) := Sides(c.homeTeam, c.awayTeam, c.team, c.opponent, ourTeam);
    var goals := ResultGoals(c.result);
    var (played, goalsFor, goalsAgainst) :=
      if goals.Some? then (true, goals.value.0, goals.value.1)
      else (Atob(c.played), Atoi(c.goalsFor), Atoi(c.goalsAgainst));
    Match(0, if c.startIso != "" then Some(c.startIso) else None, if c.endIso != "" then Some(c.endIso) else None,
          c.dateRaw, c.timeRaw, c.endTimeRaw, c.weekday, c.league, team, opponent, c.homeTeam, c.awayTeam,
          VenueOf(c.venue), c.court, CityOf(c.city, c.venue), "", "", c.matchNumber, c.referees, c.notes,
          played, goalsFor, goalsAgainst, c.playerNotes)
  }

  /** rowToMatch: one data row read through the header keys. */
  function RowToMatch(h: map<int, String>, row: seq<String>, ourTeam: String): (m: Match)
    ensures m.id == 0 && m.gatherTime == "" && m.gatherPlace == ""
    ensures m.venue == VenueOf(Cell(h, row, "venue"))
    ensures m.city == CityOf(Cell(h, row, "city"), Cell(h, row, "venue"))
    ensures (m.team, m.opponent) == Sides(Cell(h, row, "hometeam"), Cell(h, row, "awayteam"),
                                         Cell(h, row, "team"), Cell(h, row, "opponent"), ourTeam)
  {
    CellsToMatch(ReadCells(h, row), ourTeam)
  }

  // ---------------------------------------------------------------------------
  // Files
  // ---------------------------------------------------------------------------

  /** A row whose cells joined together are only white space. */
  predicate BlankRow(row: seq<String>) {
    AllSpace(Concat(row))
  }

  /** The rows that are not blank, in order. */
  function NonBlank(rows: seq<seq<String>>): (r: seq<seq<String>>)
    ensures |r| <= |rows|
    ensures forall k :: 0 <= k < |r| ==> r[k] in rows && !BlankRow(r[k])
    ensures forall k :: 0 <= k < |rows| && !BlankRow(rows[k]) ==> rows[k] in r
    ensures (forall k :: 0 <= k < |rows| ==> !BlankRow(rows[k])) ==> r == rows
  {
    if rows == [] then []
    else
      var rest := NonBlank(rows[1..]);
      assert forall k :: 1 <= k < |rows| ==> rows[k] == rows[1..][k - 1];
      if BlankRow(rows[0]) then rest else [rows[0]] + rest
  }

  /** The matches of the data rows, one per row, in order. */
  function MapRows(h: map<int, String>, rows: seq<seq<String>>, ourTeam: String): (ms: seq<Match>)
    ensures |ms| == |rows|
    ensures forall k :: 0 <= k < |rows| ==> ms[k] == RowToMatch(h, rows[k], ourTeam)
  {
    seq(|rows|, k requires 0 <= k < |rows| => RowToMatch(h, rows[k], ourTeam))
  }

  /** encoding/csv's ReadAll with the given field delimiter. */
  type CsvReader = (String, char) -> Result<seq<seq<String>>, String>

  /** The first line of the text, as `ReadString('\n')` returns it (with its newline). */
  function FirstLine(text: String): (line: String)
    ensures line <= text
    ensures '\n' in text ==> line == text[..IndexOf(text, '\n') + 1]
    ensures '\n' !in text ==> line == text
  {
    var i := IndexOf(text, '\n');
    if i < |text| then text[..i + 1] else text
  }

  /** ';' when the first line holds more semicolons than commas, else ','. */
  function Delimiter(text: String): (d: char)
    ensures d == ';' <==> Count(FirstLine(text), ';') > Count(FirstLine(text), ',')
    ensures d == ',' || d == ';'
  {
    var line := FirstLine(text);
    if Count(line, ';') > Count(line, ',') then ';' else ','
  }

  /** parseCSV: row 0 names the columns; blank data rows are skipped. */
  function ParseCSV(text: String, read: CsvReader, ourTeam: String): (r: Result<seq<Match>, String>)
    ensures read(text, Delimiter(text)).Failure? ==> r == Failure(read(text, Delimiter(text)).error)
    ensures read(text, Delimiter(text)) == Success([]) ==> r == Failure("empty csv")
    ensures read(text, Delimiter(text)).Success? && read(text, Delimiter(text)).value != [] ==> r.Success?
    ensures r.Success? ==>
      var rows := read(text, Delimiter(text)).value;
      |rows| > 0 && r.value == MapRows(NormHeaders(rows[0]), NonBlank(rows[1..]), ourTeam)
  {
    match read(text, Delimiter(text))
    case Failure(e) => Failure(e)
    case Success(rows) =>
      if |rows| == 0 then Failure("empty csv")
      else Success(MapRows(NormHeaders(rows[0]), NonBlank(rows[1..]), ourTeam))
  }

  /** parseXLSX after decoding: like parseCSV, but blank rows are kept. */
  function ParseXLSX(rows: seq<seq<String>>, ourTeam: String): (r: Result<seq<Match>, String>)
    ensures r.Failure? <==> rows == []
    ensures r.Failure? ==> r.error == "empty sheet"
    ensures r.Success? ==> |r.value| == |rows| - 1
    ensures r.Success? ==> forall k :: 1 <= k < |rows| ==> r.value[k - 1] == RowToMatch(NormHeaders(rows[0]), rows[k], ourTeam)
  {
    if |rows| == 0 then Failure("empty sheet")
    else Success(MapRows(NormHeaders(rows[0]), rows[1..], ourTeam))
  }

  /** `filepath.Ext`: the suffix from the last '.' of the last path element, or "". */
  function Ext(path: String): (e: String)
    ensures e != [] ==> e[0] == '.' && '/' !in e && '.' !in e[1..]
    ensures e != [] ==> |e| <= |path| && path[|path| - |e|..] == e
    ensures '.' !in path ==> e == []
    decreases |path|
  {
    if path == [] || path[|path| - 1] == '/' then []
    else if path[|path| - 1] == '.' then ['.']
    else
      var e := Ext(path[..|path| - 1]);
      if e == [] then [] else e + [path[|path| - 1]]
  }

  /**
   * excelize: the rows of the first sheet of the (at most 10 MiB) file, or the
   * error of opening it, of a missing sheet ("no sheet") or of reading its rows.
   */
  type XlsxReader = String -> Result<seq<seq<String>>, String>

  /** parseImport: dispatch on the lower-cased extension after opening the upload. */
  function ParseImport(filename: String, file: Result<String, String>, readCsv: CsvReader, readXlsx: XlsxReader,
                       ourTeam: String): (r: Result<seq<Match>, String>)
    ensures file.Failure? ==> r == Failure(file.error)
    ensures file.Success? && ToLower(Ext(filename)) == ".csv" ==> r == ParseCSV(file.value, readCsv, ourTeam)
    ensures file.Success? && ToLower(Ext(filename)) == ".xlsx" && readXlsx(file.value).Failure? ==>
      r == Failure(readXlsx(file.value).error)
    ensures file.Success? && ToLower(Ext(filename)) == ".xlsx" && readXlsx(file.value).Success? ==>
      r == ParseXLSX(readXlsx(file.value).value, ourTeam)
    ensures file.Success? && ToLower(Ext(filename)) !in {".csv", ".xlsx"} ==>
      r == Failure("unsupported file type: " + ToLower(Ext(filename)))
  {
    var ext := ToLower(Ext(filename));
    match file
    case Failure(e) => Failure(e)
    case Success(content) =>
      if ext == ".csv" then ParseCSV(content, readCsv, ourTeam)
      else if ext == ".xlsx" then
        match readXlsx(content)
        case Failure(e) => Failure(e)
        case Success(rows) => ParseXLSX(rows, ourTeam)
      else Failure("unsupported file type: " + ext)
  }

  // ---------------------------------------------------------------------------
  // Lemmas
  // ---------------------------------------------------------------------------

  lemma {:induction false} LowerAsciiPlain(k: String)
    requires forall i :: 0 <= i < |k| ==> 'a' <= k[i] <= 'z'
    ensures Plain(k)
  {
  }

  lemma TargetsArePlain()
    ensures forall v :: v in AliasTargets ==> Plain(v)
  {
    forall v | v in AliasTargets
      ensures Plain(v)
    {
      LowerAsciiPlain(v);
    }
  }

  lemma PlainTrimmed(k: String)
    requires Plain(k)
    ensures TrimSpace(k) == k
  {
    if k != [] {
      assert HeaderChar(k[0]) && HeaderChar(k[|k| - 1]);
      assert !IsSpace(k[0]) && !IsSpace(k[|k| - 1]);
    }
    TrimSpaceOfCore([], k, []);
    assert [] + k + [] == k;
  }

  lemma PlainLower(k: String)
    requires Plain(k)
    ensures ToLower(k) == k
  {
    assert forall i :: 0 <= i < |k| ==> !IsUpper(k[i]);
  }

  /** Normalising a header key again changes nothing. */
  lemma NormHeaderIdempotent(h: String)
    ensures NormHeader(NormHeader(h)) == NormHeader(h)
  {
    PlainTrimmed(NormHeader(h));
    PlainLower(NormHeader(h));
  }

  lemma {:induction false} KeepAndFoldAppend(a: String, b: String)
    ensures KeepAndFold(a + b) == KeepAndFold(a) + KeepAndFold(b)
  {
    if a == [] {
      assert a + b == b;
    } else {
      assert (a + b)[0] == a[0] && (a + b)[1..] == a[1..] + b;
      KeepAndFoldAppend(a[1..], b);
    }
  }

  /** On letters and digits, KeepAndFold only folds. */
  lemma {:induction false} KeepAndFoldLetters(s: String)
    requires forall i :: 0 <= i < |s| ==> HeaderChar(s[i])
    ensures KeepAndFold(s) == seq(|s|, i requires 0 <= i < |s| => FoldSwedish(s[i]))
  {
    if s != [] {
      KeepAndFoldLetters(s[1..]);
    }
  }

  lemma WordTrimmed(h: String)
    requires h != [] && forall i :: 0 <= i < |h| ==> IsLetter(h[i])
    ensures TrimSpace(h) == h
  {
    assert !IsSpace(h[0]) && !IsSpace(h[|h| - 1]);
    TrimSpaceOfCore([], h, []);
    assert [] + h + [] == h;
  }

  lemma {:induction false} FoldedLetters(l: String, folded: String)
    requires forall i :: 0 <= i < |l| ==> HeaderChar(l[i])
    requires |folded| == |l| && forall i :: 0 <= i < |l| ==> folded[i] == FoldSwedish(l[i])
    ensures KeepAndFold(l) == folded
  {
    KeepAndFoldLetters(l);
  }

  lemma {:induction false} KeepAndFoldNone(s: String)
    requires forall i :: 0 <= i < |s| ==> !HeaderChar(s[i])
    ensures KeepAndFold(s) == []
  {
    if s != [] {
      KeepAndFoldNone(s[1..]);
    }
  }

  lemma {:induction false} LowerWord(a: String, fa: String)
    requires forall i :: 0 <= i < |a| ==> IsLetter(a[i])
    requires |fa| == |a| && forall i :: 0 <= i < |a| ==> fa[i] == FoldSwedish(LowerChar(a[i]))
    ensures KeepAndFold(ToLower(a)) == fa
  {
    var l := ToLower(a);
    assert forall i :: 0 <= i < |l| ==> HeaderChar(l[i]) && fa[i] == FoldSwedish(l[i]);
    FoldedLetters(l, fa);
  }

  /**
   * A title made of a word, some separator characters and a second word keeps
   * the folded lower case of the two words.
   */
  lemma {:induction false} FoldOfWords(h: String, a: String, sep: String, b: String, fa: String, fb: String)
    requires h == a + sep + b && Trimmed(h)
    requires KeepAndFold(ToLower(a)) == fa && KeepAndFold(ToLower(sep)) == [] && KeepAndFold(ToLower(b)) == fb
    ensures KeepAndFold(ToLower(TrimSpace(h))) == fa + fb
  {
    TrimmedIsFixed(h);
    ToLowerAppend(a + sep, b);
    ToLowerAppend(a, sep);
    KeepAndFoldAppend(ToLower(a) + ToLower(sep), ToLower(b));
    KeepAndFoldAppend(ToLower(a), ToLower(sep));
    assert fa + [] == fa;
  }

  lemma TrimmedIsFixed(h: String)
    requires Trimmed(h)
    ensures TrimSpace(h) == h
  {
    TrimSpaceOfCore([], h, []);
    assert [] + h + [] == h;
  }

  lemma ToLowerAppend(a: String, b: String)
    ensures ToLower(a + b) == ToLower(a) + ToLower(b)
  {
  }

  lemma NormHeaderVia(h: String, folded: String)
    requires KeepAndFold(ToLower(TrimSpace(h))) == folded
    ensures NormHeader(h) == Alias(folded)
  {
  }

  lemma FoldTavling(h: String)
    requires h == "T\U{E4}vling"
    ensures KeepAndFold(ToLower(TrimSpace(h))) == "tavling"
  {
    LowerWord(h, "tavling");
    FoldOfWords(h, h, "", "", "tavling", "");
  }

  lemma AliasTavling()
    ensures Alias("tavling") == "league"
  {
  }

  /** "Tävling" is the league column: "ä" folds to "a". */
  lemma NormHeaderTavling(h: String)
    requires h == "T\U{E4}vling"
    ensures NormHeader(h) == "league"
  {
    FoldTavling(h);
    NormHeaderVia(h, "tavling");
    AliasTavling();
  }

  lemma FoldDatum(h: String)
    requires h == "Datum |"
    ensures KeepAndFold(ToLower(TrimSpace(h))) == "datum"
  {
    LowerWord("Datum", "datum");
    KeepAndFoldNone(ToLower(" |"));
    FoldOfWords(h, "Datum", " |", "", "datum", "");
  }

  lemma AliasDatum()
    ensures Alias("datum") == "dateraw"
  {
  }

  /** "Datum |" is the date column: the pipe and the space are dropped. */
  lemma NormHeaderDatum(h: String)
    requires h == "Datum |"
    ensures NormHeader(h) == "dateraw"
  {
    FoldDatum(h);
    NormHeaderVia(h, "datum");
    AliasDatum();
  }

  lemma FoldMal(a: String)
    requires a == "M\U{E5}l"
    ensures KeepAndFold(ToLower(a)) == "mal"
  {
    LowerWord(a, "mal");
  }

  lemma FoldBorta(b: String)
    requires b == "borta"
    ensures KeepAndFold(ToLower(b)) == b
  {
    LowerWord(b, b);
  }

  lemma FoldSpace(sp: String)
    requires sp == " "
    ensures KeepAndFold(ToLower(sp)) == []
  {
    KeepAndFoldNone(ToLower(sp));
  }

  lemma FoldMalBorta(h: String, a: String, sp: String, b: String)
    requires a == "M\U{E5}l" && sp == " " && b == "borta" && h == a + sp + b
    ensures KeepAndFold(ToLower(TrimSpace(h))) == "mal" + b
  {
    FoldMal(a);
    FoldBorta(b);
    FoldSpace(sp);
    assert Trimmed(h) by { assert h[0] == a[0] == 'M' && h[|h| - 1] == b[|b| - 1] == 'a'; }
    FoldOfWords(h, a, sp, b, "mal", b);
  }

  lemma AliasMalBorta()
    ensures Alias("malborta") == "goalsagainst"
  {
  }

  /** "Mål borta" is the goals-against column: "å" folds to "a" and the space is dropped. */
  lemma SplitMalBorta(h: String)
    requires h == "M\U{E5}l borta"
    ensures h == "M\U{E5}l" + " " + "borta"
  {
  }

  lemma JoinMalBorta()
    ensures "mal" + "borta" == "malborta"
  {
  }

  lemma NormHeaderMalBorta(h: String)
    requires h == "M\U{E5}l borta"
    ensures NormHeader(h) == "goalsagainst"
  {
    SplitMalBorta(h);
    FoldMalBorta(h, "M\U{E5}l", " ", "borta");
    JoinMalBorta();
    NormHeaderVia(h, "malborta");
    AliasMalBorta();
  }


  /** With exactly one column keyed `key` inside the row, get reads that column. */
  lemma CellUnique(h: map<int, String>, row: seq<String>, key: String, j: nat)
    requires j < |row| && j in h && h[j] == key
    requires forall i :: 0 <= i < |row| && i in h && i != j ==> h[i] != key
    ensures Cell(h, row, key) == TrimSpace(row[j])
  {
  }

  /** atob ignores case and surrounding white space. */
  lemma AtobNormalised(s: String)
    ensures Atob(s) == Atob(ToLower(TrimSpace(s)))
  {
    TrimSpaceIdempotent(s);
    TrimLowerCommute(TrimSpace(s));
    ToLowerIdempotent(TrimSpace(s));
  }

  /**
   * When our team is exactly one of the two sides, the team/opponent pair is
   * ours first whichever side is the home side, and the team and opponent cells
   * are ignored.
   */
  lemma SidesFollowOurTeam(home: String, away: String, team: String, opponent: String, ourTeam: String)
    requires TrimSpace(ourTeam) != "" && SameTeam(home, ourTeam) && !SameTeam(away, ourTeam)
    ensures Sides(home, away, team, opponent, ourTeam) == (TrimSpace(home), TrimSpace(away))
    ensures Sides(away, home, team, opponent, ourTeam) == (TrimSpace(home), TrimSpace(away))
  {
    TrimSpaceIdempotent(home);
    TrimSpaceIdempotent(away);
    TrimSpaceIdempotent(ourTeam);
  }

  lemma DecimalNoDash(x: nat)
    ensures '-' !in FormatInt(x) && Trimmed(FormatInt(x))
  {
    var s := FormatInt(x);
    assert forall i :: 0 <= i < |s| ==> IsDigit(s[i]);
  }

  lemma AtoiFormat(x: nat)
    requires x <= MaxInt64
    ensures Atoi(TrimSpace(FormatInt(x))) == x
  {
    DecimalNoDash(x);
    TrimmedIsFixed(FormatInt(x));
    ParseFormat(x);
  }

  lemma ScoreSplit(a: String, b: String)
    requires '-' !in a && Trimmed(a + "-" + b)
    ensures var t := a + "-" + b;
      '-' in TrimSpace(t) && t[..IndexOf(TrimSpace(t), '-')] == a && t[IndexOf(TrimSpace(t), '-') + 1..] == b
      && TrimSpace(t) == t
  {
    var t := a + "-" + b;
    TrimmedIsFixed(t);
    assert t == a + ['-'] + b;
    IndexOfPrefix(a, '-', b);
    assert t[..|a|] == a && t[|a| + 1..] == b;
    assert t[|a|] == '-';
  }

  /**
   * A result written "x-y" with decimal x and y reads back as the goals (x, y),
   * except that "0-0" is read as no result at all.
   */
  lemma ResultGoalsOfScore(x: nat, y: nat)
    requires x <= MaxInt64 && y <= MaxInt64
    ensures ResultGoals(FormatInt(x) + "-" + FormatInt(y)) == if x > 0 || y > 0 then Some((x, y)) else None
  {
    var (a, b) := (FormatInt(x), FormatInt(y));
    DecimalNoDash(x);
    DecimalNoDash(y);
    assert Trimmed(a + "-" + b) by {
      assert (a + "-" + b)[0] == a[0] && (a + "-" + b)[|a + "-" + b| - 1] == b[|b| - 1];
    }
    ScoreSplit(a, b);
    AtoiFormat(x);
    AtoiFormat(y);
  }

  /** The columns rowToMatch copies verbatim: each field is the trimmed cell under its key. */
  lemma RowToMatchColumns(h: map<int, String>, row: seq<String>, ourTeam: String)
    ensures var m := RowToMatch(h, row, ourTeam);
      && m.league == Cell(h, row, "league") && m.weekday == Cell(h, row, "weekday")
      && m.matchNumber == Cell(h, row, "matchnumber") && m.dateRaw == Cell(h, row, "dateraw")
      && m.timeRaw == Cell(h, row, "timeraw") && m.endTimeRaw == Cell(h, row, "endtimeraw")
      && m.homeTeam == Cell(h, row, "hometeam") && m.awayTeam == Cell(h, row, "awayteam")
      && m.court == Cell(h, row, "court") && m.referees == Cell(h, row, "referees")
      && m.notes == Cell(h, row, "notes") && m.playerNotes == Cell(h, row, "playernotes")
  {
  }

  /** A 0-0 result leaves played as the played column gave it. */
  lemma ZeroZeroKeepsPlayed(h: map<int, String>, row: seq<String>, ourTeam: String)
    requires Cell(h, row, "result") == "0-0"
    ensures RowToMatch(h, row, ourTeam).played == Atob(Cell(h, row, "played"))
  {
    ResultZeroZero(Cell(h, row, "result"));
  }

  lemma ResultZeroZero(r: String)
    requires r == "0-0"
    ensures ResultGoals(r) == None
  {
    assert FormatInt(0) == "0";
    assert r == FormatInt(0) + "-" + FormatInt(0);
    ResultGoalsOfScore(0, 0);
  }

  /** parseCSV keeps exactly the non-blank data rows, so its output is never longer than the data. */
  lemma ParseCSVLength(text: String, read: CsvReader, ourTeam: String)
    requires read(text, Delimiter(text)).Success? && read(text, Delimiter(text)).value != []
    ensures var rows := read(text, Delimiter(text)).value;
      ParseCSV(text, read, ourTeam).Success?
      && |ParseCSV(text, read, ourTeam).value| == NonBlankCount(rows[1..]) <= |rows| - 1
  {
    var rows := read(text, Delimiter(text)).value;
    NonBlankLength(rows[1..]);
  }

  /** On sheets without blank rows the CSV and the XLSX front ends produce the same matches. */
  lemma CsvAgreesWithXlsx(text: String, read: CsvReader, ourTeam: String)
    requires read(text, Delimiter(text)).Success? && read(text, Delimiter(text)).value != []
    requires var rows := read(text, Delimiter(text)).value; forall k :: 1 <= k < |rows| ==> !BlankRow(rows[k])
    ensures ParseCSV(text, read, ourTeam) == ParseXLSX(read(text, Delimiter(text)).value, ourTeam)
  {
    var rows := read(text, Delimiter(text)).value;
    var data := rows[1..];
    assert forall k :: 0 <= k < |data| ==> data[k] == rows[k + 1] && !BlankRow(data[k]);
    assert NonBlank(data) == data;
  }

  /** A blank data row contributes nothing: appending one leaves the CSV result unchanged. */
  lemma BlankRowSkipped(rows: seq<seq<String>>, blank: seq<String>, ourTeam: String)
    requires |rows| > 0 && BlankRow(blank)
    ensures MapRows(NormHeaders(rows[0]), NonBlank((rows + [blank])[1..]), ourTeam)
         == MapRows(NormHeaders(rows[0]), NonBlank(rows[1..]), ourTeam)
  {
    assert (rows + [blank])[1..] == rows[1..] + [blank];
    NonBlankAppendBlank(rows[1..], blank);
  }

  lemma NonBlankAppendBlank(rows: seq<seq<String>>, blank: seq<String>)
    requires BlankRow(blank)
    ensures NonBlank(rows + [blank]) == NonBlank(rows)
  {
    NonBlankSnoc(rows, blank);
    assert NonBlank(rows) + [] == NonBlank(rows);
  }

  /** Filtering a concatenation filters each part and keeps them in order. */
  lemma {:induction false} NonBlankAppend(a: seq<seq<String>>, b: seq<seq<String>>)
    ensures NonBlank(a + b) == NonBlank(a) + NonBlank(b)
  {
    if a == [] {
      assert a + b == b;
    } else {
      assert (a + b)[0] == a[0] && (a + b)[1..] == a[1..] + b;
      NonBlankAppend(a[1..], b);
    }
  }

  /** One more row at the end is kept exactly when it is not blank, after the rows before it. */
  lemma NonBlankSnoc(rows: seq<seq<String>>, x: seq<String>)
    ensures NonBlank(rows + [x]) == NonBlank(rows) + (if BlankRow(x) then [] else [x])
  {
    NonBlankAppend(rows, [x]);
    assert [x][1..] == [];
  }

  /** The number of non-blank rows, counted from the end. */
  function NonBlankCount(rows: seq<seq<String>>): nat {
    if rows == [] then 0
    else NonBlankCount(rows[..|rows| - 1]) + (if BlankRow(rows[|rows| - 1]) then 0 else 1)
  }

  /** NonBlank keeps as many rows as there are non-blank ones. */
  lemma {:induction false} NonBlankLength(rows: seq<seq<String>>)
    ensures |NonBlank(rows)| == NonBlankCount(rows)
  {
    if rows != [] {
      var init := rows[..|rows| - 1];
      assert rows == init + [rows[|rows| - 1]];
      NonBlankSnoc(init, rows[|rows| - 1]);
      NonBlankLength(init);
    }
  }

  /** "Arena, City" splits into the venue "Arena" and the city "City". */
  lemma VenueCitySplit(v: String, c: String)
    requires Trimmed(v) && Trimmed(c) && v != "" && c != "" && ',' !in v
    ensures VenueOf(v + ", " + c) == v
    ensures CityOf("", v + ", " + c) == c
  {
    assert v + ", " + c == v + [','] + ([' '] + c);
    assert IsSpace(' ');
    assert [' '] + c + [] == [' '] + c;
    TrimSpaceOfCore([' '], c, []);
    SplitAtComma(v, [' '] + c);
  }

  lemma SplitAtComma(v: String, after: String)
    requires Trimmed(v) && ',' !in v
    ensures VenueOf(v + [','] + after) == v
    ensures TrimSpace(after) != "" ==> CityOf("", v + [','] + after) == TrimSpace(after)
  {
    var raw := v + [','] + after;
    IndexOfPrefix(v, ',', after);
    assert raw[..|v|] == v;
    assert raw[|v| + 1..] == after;
    assert [] + v + [] == v;
    TrimSpaceOfCore([], v, []);
  }

  /** A header line of at least two comma-free cells joined by ';' makes ';' the delimiter. */
  lemma SemicolonHeader(cells: seq<String>, rest: String)
    requires |cells| >= 2
    requires forall i :: 0 <= i < |cells| ==> ',' !in cells[i] && '\n' !in cells[i]
    ensures Delimiter(Join(cells, ';') + "\n" + rest) == ';'
  {
    var line := Join(cells, ';');
    JoinAvoids(cells, ';', ',');
    JoinAvoids(cells, ';', '\n');
    assert line == cells[0] + [';'] + Join(cells[1..], ';');
    assert line[|cells[0]|] == ';';
    var text := line + "\n" + rest;
    assert text == line + ['\n'] + rest;
    IndexOfPrefix(line, '\n', rest);
    assert FirstLine(text) == line + "\n";
    assert ';' in line + "\n" && ',' !in line + "\n";
  }

  lemma {:induction false} ExtOfSuffix(stem: String, e: String)
    requires '.' !in e && '/' !in e
    ensures Ext(stem + "." + e) == "." + e
    decreases |e|
  {
    if e == [] {
      assert stem + "." + e == stem + ".";
    } else {
      var e' := e[..|e| - 1];
      assert stem + "." + e == (stem + "." + e') + [e[|e| - 1]];
      assert e == e' + [e[|e| - 1]];
      ExtOfSuffix(stem, e');
    }
  }

  /**
   * The extension is compared after lower-casing, so "Matcher.CSV" goes to the
   * CSV reader like "matcher.csv".
   */
  lemma CsvExtensionCaseInsensitive(stem: String, e: String, file: String, readCsv: CsvReader,
                                    readXlsx: XlsxReader, ourTeam: String)
    requires '.' !in e && '/' !in e && ToLower(e) == "csv"
    ensures ParseImport(stem + "." + e, Success(file), readCsv, readXlsx, ourTeam) == ParseCSV(file, readCsv, ourTeam)
  {
    ExtOfSuffix(stem, e);
    ToLowerAppend(".", e);
    assert ToLower(".") == ".";
  }
}

=== FILE: match_model.dfy ===
/**
 * The two shapes of a match in package `matches`: the API record `Match`, whose
 * text fields are plain strings, and the stored row `DbMatch`, whose columns are
 * all nullable. The pointer helpers of the package convert between the two:
 * `pstr`, `pPlayed` and `pI64ZeroNil` on the way in (internal/matches/repository.go),
 * `sval`, `bval` and `ival` on the way out (internal/matches/http.go).
 */
module MatchModel {

  import opened Wrappers
  import opened Text

  datatype Match = Match(
    id: int,
    startIso: Option<String>,
    endIso: Option<String>,
    dateRaw: String,
    timeRaw: String,
    endTimeRaw: String,
    weekday: String,
    league: String,
    team: String,
    opponent: String,
    homeTeam: String,
    awayTeam: String,
    venue: String,
    court: String,
    city: String,
    gatherTime: String,
    gatherPlace: String,
    matchNumber: String,
    referees: String,
    notes: String,
    played: bool,
    goalsFor: int,
    goalsAgainst: int,
    playerNotes: String)

  /** A row of the `matches` table; `played` is the 0/1 integer column. */
  datatype DbMatch = DbMatch(
    id: int,
    startIso: Option<String>,
    endIso: Option<String>,
    dateRaw: Option<String>,
    timeRaw: Option<String>,
    endTimeRaw: Option<String>,
    weekday: Option<String>,
    league: Option<String>,
    team: Option<String>,
    opponent: Option<String>,
    homeTeam: Option<String>,
    awayTeam: Option<String>,
    venue: Option<String>,
    court: Option<String>,
    city: Option<String>,
    gatherTime: Option<String>,
    gatherPlace: Option<String>,
    matchNumber: Option<String>,
    referees: Option<String>,
    notes: Option<String>,
    played: Option<int>,
    goalsFor: Option<int>,
    goalsAgainst: Option<int>,
    playerNotes: Option<String>)

  /** The eighteen free-text fields, which every layer treats alike. */
  datatype TextField =
    | DateRaw | TimeRaw | EndTimeRaw | Weekday | League | Team | Opponent | HomeTeam | AwayTeam
    | Venue | Court | City | GatherTime | GatherPlace | MatchNumber | Referees | Notes | PlayerNotes

  function FieldText(m: Match, f: TextField): String {
    match f
    case DateRaw => m.dateRaw
    case TimeRaw => m.timeRaw
    case EndTimeRaw => m.endTimeRaw
    case Weekday => m.weekday
    case League => m.league
    case Team => m.team
    case Opponent => m.opponent
    case HomeTeam => m.homeTeam
    case AwayTeam => m.awayTeam
    case Venue => m.venue
    case Court => m.court
    case City => m.city
    case GatherTime => m.gatherTime
    case GatherPlace => m.gatherPlace
    case MatchNumber => m.matchNumber
    case Referees => m.referees
    case Notes => m.notes
    case PlayerNotes => m.playerNotes
  }

  function ColumnText(r: DbMatch, f: TextField): Option<String> {
    match f
    case DateRaw => r.dateRaw
    case TimeRaw => r.timeRaw
    case EndTimeRaw => r.endTimeRaw
    case Weekday => r.weekday
    case League => r.league
    case Team => r.team
    case Opponent => r.opponent
    case HomeTeam => r.homeTeam
    case AwayTeam => r.awayTeam
    case Venue => r.venue
    case Court => r.court
    case City => r.city
    case GatherTime => r.gatherTime
    case GatherPlace => r.gatherPlace
    case MatchNumber => r.matchNumber
    case Referees => r.referees
    case Notes => r.notes
    case PlayerNotes => r.playerNotes
  }

  /** Go's zero `Match{}`: every string empty, not played, no goals, no times. */
  const Blank: Match := Match(0, None, None, "", "", "", "", "", "", "", "", "", "", "", "", "", "", "", "", "",
                              false, 0, 0, "")

  // ---------------------------------------------------------------------------
  // Nullable <-> plain
  // ---------------------------------------------------------------------------

  /** pstr: the empty string is stored as NULL. */
  function Pstr(s: String): (p: Option<String>)
    ensures p.None? <==> s == ""
    ensures p.Some? ==> p.value == s
  {
    if s == "" then None else Some(s)
  }

  /** pstrKeep: a non-empty new value replaces the column, an empty one keeps it. */
  function PstrKeep(newVal: String, cur: Option<String>): (p: Option<String>)
    ensures newVal != "" ==> p == Some(newVal)
    ensures newVal == "" ==> p == cur
  {
    if newVal != "" then Pstr(newVal) else cur
  }

  /** pPlayed: never NULL, 1 for played and 0 otherwise. */
  function PPlayed(b: bool): (p: Option<int>)
    ensures p.Some? && p.value in {0, 1}
    ensures p.value == 1 <==> b
  {
    Some(if b then 1 else 0)
  }

  /** pI64ZeroNil: zero goals are stored as NULL. */
  function PI64ZeroNil(v: int): (p: Option<int>)
    ensures p.None? <==> v == 0
    ensures p.Some? ==> p.value == v
  {
    if v == 0 then None else Some(v)
  }

  /** sval: NULL reads as the empty string. */
  function Sval(p: Option<String>): (s: String)
    ensures s == "" <==> p.None? || p.value == ""
  {
    match p
    case None => ""
    case Some(s) => s
  }

  /** ival: NULL reads as 0. */
  function Ival(p: Option<int>): (v: int)
    ensures v == 0 <==> p.None? || p.value == 0
  {
    match p
    case None => 0
    case Some(v) => v
  }

  /** bval: played means a non-NULL, non-zero column. */
  function Bval(p: Option<int>): (b: bool)
    ensures b <==> p.Some? && p.value != 0
  {
    p.Some? && p.value != 0
  }

  // ---------------------------------------------------------------------------
  // Lemmas
  // ---------------------------------------------------------------------------

  /** Every plain value survives being stored and read back. */
  lemma StoreReadRoundTrip(s: String, v: int, b: bool)
    ensures Sval(Pstr(s)) == s
    ensures Ival(PI64ZeroNil(v)) == v
    ensures Bval(PPlayed(b)) == b
  {
  }

  /**
   * Reading and re-storing a column gives it back exactly when it is not an
   * empty string or a zero, the two values the write helpers never produce.
   */
  lemma ReadStoreRoundTrip(p: Option<String>, q: Option<int>)
    ensures Pstr(Sval(p)) == p <==> p != Some("")
    ensures PI64ZeroNil(Ival(q)) == q <==> q != Some(0)
  {
  }

  /** pstrKeep never turns a non-NULL column into NULL. */
  lemma PstrKeepNeverClears(newVal: String, cur: Option<String>)
    ensures cur.Some? ==> PstrKeep(newVal, cur).Some?
    ensures Sval(PstrKeep(newVal, cur)) == if newVal != "" then newVal else Sval(cur)
  {
  }
}

=== FILE: match_repository.dfy ===
/**
 * The match repository (internal/matches/repository.go): the `matches` table as a
 * map from id to row, `Create` with its derived start/end times, and `Update`,
 * which merges a partial record into the stored row.
 */
module MatchRepository {

  import opened Wrappers
  import opened Text
  import opened Ids
  import opened MatchModel

  /**
   * `time.ParseInLocation("2006-01-02 15:04", s, Europe/Stockholm)` followed by
   * formatting as RFC 3339; `None` when `s` does not parse.
   */
  type Zone = String -> Option<String>

  /** The time ParseLocalISO assumes when only a date is given. */
  const Midnight: String := "00:00"

  /**
   * ParseLocalISO: no time at all when both parts are empty; otherwise the zoned
   * reading of "date time", with midnight for a missing time.
   */
  function ParseLocalISO(dateRaw: String, timeRaw: String, zone: Zone): (r: Option<String>)
    ensures dateRaw == "" && timeRaw == "" ==> r == None
    ensures timeRaw != "" ==> r == zone(dateRaw + " " + timeRaw)
    ensures dateRaw != "" && timeRaw == "" ==> r == zone(dateRaw + " " + Midnight)
  {
    if dateRaw == "" && timeRaw == "" then None
    else
      var t := if timeRaw == "" then Midnight else timeRaw;
      zone(dateRaw + " " + t)
  }

  datatype MatchTable = MatchTable(rows: map<int, DbMatch>, nextId: int)

  const EmptyTable: MatchTable := MatchTable(map[], 1)

  /** Every row sits under its own id, and ids below `nextId` are the only ones used. */
  ghost predicate ValidTable(t: MatchTable) {
    && t.nextId >= 1
    && forall id :: id in t.rows ==> 1 <= id < t.nextId && t.rows[id].id == id
  }

  /** The start time Create stores: an explicit one, else one derived from date and time. */
  function CreateStart(m: Match, zone: Zone): Option<String> {
    if m.startIso.None? && (m.dateRaw != "" || m.timeRaw != "") then ParseLocalISO(m.dateRaw, m.timeRaw, zone)
    else m.startIso
  }

  /** The end time Create stores: an explicit one, else one derived when both date and end time are given. */
  function CreateEnd(m: Match, zone: Zone): Option<String> {
    if m.endIso.None? && m.dateRaw != "" && m.endTimeRaw != "" then ParseLocalISO(m.dateRaw, m.endTimeRaw, zone)
    else m.endIso
  }

  /** The row CreateMatch inserts for `m` under `id`. */
  function NewRow(m: Match, zone: Zone, id: int): (r: DbMatch)
    ensures r.id == id
    ensures forall f :: ColumnText(r, f) == Pstr(FieldText(m, f))
    ensures r.played == PPlayed(m.played)
    ensures r.goalsFor == PI64ZeroNil(m.goalsFor) && r.goalsAgainst == PI64ZeroNil(m.goalsAgainst)
    ensures r.startIso == CreateStart(m, zone) && r.endIso == CreateEnd(m, zone)
  {
    DbMatch(id, CreateStart(m, zone), CreateEnd(m, zone),
            Pstr(m.dateRaw), Pstr(m.timeRaw), Pstr(m.endTimeRaw), Pstr(m.weekday), Pstr(m.league),
            Pstr(m.team), Pstr(m.opponent), Pstr(m.homeTeam), Pstr(m.awayTeam), Pstr(m.venue),
            Pstr(m.court), Pstr(m.city), Pstr(m.gatherTime), Pstr(m.gatherPlace), Pstr(m.matchNumber),
            Pstr(m.referees), Pstr(m.notes), PPlayed(m.played), PI64ZeroNil(m.goalsFor),
            PI64ZeroNil(m.goalsAgainst), Pstr(m.playerNotes))
  }

  /** Create: inserts the new row under the next id and returns it; the id of `m` is ignored. */
  function Create(t: MatchTable, m: Match, zone: Zone): (r: (MatchTable, DbMatch))
    ensures r.1 == NewRow(m, zone, t.nextId)
    ensures r.0.rows == t.rows[t.nextId := r.1] && r.0.nextId == t.nextId + 1
    ensures ValidTable(t) ==> ValidTable(r.0) && t.nextId !in t.rows
  {
    var row := NewRow(m, zone, t.nextId);
    (MatchTable(t.rows[t.nextId := row], t.nextId + 1), row)
  }

  /** GetMatch: the row with that id, or "no rows". */
  function Get(t: MatchTable, id: int): (r: Result<DbMatch, String>)
    ensures r.Success? <==> id in t.rows
    ensures r.Success? ==> r.value == t.rows[id]
  {
    if id in t.rows then Success(t.rows[id]) else Failure("sql: no rows in result set")
  }

  /** ListMatches: every row, in id order. */
  function List(t: MatchTable): (out: seq<DbMatch>)
    ensures ValidTable(t) ==> forall k :: 0 <= k < |out| ==> out[k].id in t.rows && t.rows[out[k].id] == out[k]
    ensures ValidTable(t) ==> forall id :: id in t.rows ==> t.rows[id] in out
    ensures ValidTable(t) ==> forall a, b :: 0 <= a < b < |out| ==> out[a].id < out[b].id
  {
    var out := ValuesBetween(t.rows, 1, t.nextId);
    ghost var ks := KeysBetween(t.rows, 1, t.nextId);
    assert ValidTable(t) ==> forall k :: 0 <= k < |out| ==> out[k].id == ks[k];
    out
  }

  /** The text columns Update writes: a non-empty value of `m` replaces, an empty one keeps. */
  function MergeText(cur: DbMatch, m: Match): (out: DbMatch)
    ensures forall f :: ColumnText(out, f) == PstrKeep(FieldText(m, f), ColumnText(cur, f))
  {
    DbMatch(cur.id, cur.startIso, cur.endIso,
            PstrKeep(m.dateRaw, cur.dateRaw), PstrKeep(m.timeRaw, cur.timeRaw),
            PstrKeep(m.endTimeRaw, cur.endTimeRaw), PstrKeep(m.weekday, cur.weekday),
            PstrKeep(m.league, cur.league), PstrKeep(m.team, cur.team), PstrKeep(m.opponent, cur.opponent),
            PstrKeep(m.homeTeam, cur.homeTeam), PstrKeep(m.awayTeam, cur.awayTeam), PstrKeep(m.venue, cur.venue),
            PstrKeep(m.court, cur.court), PstrKeep(m.city, cur.city), PstrKeep(m.gatherTime, cur.gatherTime),
            PstrKeep(m.gatherPlace, cur.gatherPlace), PstrKeep(m.matchNumber, cur.matchNumber),
            PstrKeep(m.referees, cur.referees), PstrKeep(m.notes, cur.notes),
            cur.played, cur.goalsFor, cur.goalsAgainst, PstrKeep(m.playerNotes, cur.playerNotes))
  }

  /**
   * The row Update writes for `m` over `cur`: non-empty text replaces, played is
   * only ever set, zero goals keep the stored ones, and the times are recomputed
   * from the merged date and times when the request named a date or time.
   */
  function Merge(cur: DbMatch, m: Match, zone: Zone, id: int): (out: DbMatch)
    ensures out.id == id
    ensures forall f :: ColumnText(out, f) == PstrKeep(FieldText(m, f), ColumnText(cur, f))
    ensures out.played == if m.played then Some(1) else cur.played
    ensures out.goalsFor == if m.goalsFor != 0 then Some(m.goalsFor) else cur.goalsFor
    ensures out.goalsAgainst == if m.goalsAgainst != 0 then Some(m.goalsAgainst) else cur.goalsAgainst
    ensures m.dateRaw != "" || m.timeRaw != "" ==>
      out.startIso == ParseLocalISO(Sval(out.dateRaw), Sval(out.timeRaw), zone)
    ensures m.dateRaw == "" && m.timeRaw == "" ==> out.startIso == cur.startIso
    ensures m.dateRaw != "" || m.endTimeRaw != "" ==>
      out.endIso == ParseLocalISO(Sval(out.dateRaw), Sval(out.endTimeRaw), zone)
    ensures m.dateRaw == "" && m.endTimeRaw == "" ==> out.endIso == cur.endIso
  {
    var text := MergeText(cur, m);
    var startIso :=
      if m.dateRaw != "" || m.timeRaw != "" then ParseLocalISO(Sval(text.dateRaw), Sval(text.timeRaw), zone)
      else cur.startIso;
    var endIso :=
      if m.dateRaw != "" || m.endTimeRaw != "" then ParseLocalISO(Sval(text.dateRaw), Sval(text.endTimeRaw), zone)
      else cur.endIso;
    var out := text.(id := id, startIso := startIso, endIso := endIso,
                     played := if m.played then PPlayed(m.played) else cur.played,
                     goalsFor := if m.goalsFor != 0 then PI64ZeroNil(m.goalsFor) else cur.goalsFor,
                     goalsAgainst := if m.goalsAgainst != 0 then PI64ZeroNil(m.goalsAgainst) else cur.goalsAgainst);
    assert out.dateRaw == text.dateRaw && out.timeRaw == text.timeRaw && out.endTimeRaw == text.endTimeRaw;
    assert forall f :: ColumnText(out, f) == ColumnText(text, f);
    out
  }

  /** Update: fails on an unknown id before writing; otherwise stores and returns the merged row. */
  function Update(t: MatchTable, id: int, m: Match, zone: Zone): (r: (MatchTable, Result<DbMatch, String>))
    ensures r.1.Failure? <==> id !in t.rows
    ensures r.1.Failure? ==> r.0 == t && r.1.error == "get: sql: no rows in result set"
    ensures r.1.Success? ==> r.1.value == Merge(t.rows[id], m, zone, id) && r.0 == t.(rows := t.rows[id := r.1.value])
    ensures ValidTable(t) ==> ValidTable(r.0)
  {
    match Get(t, id)
    case Failure(e) => (t, Failure("get: " + e))
    case Success(cur) =>
      var out := Merge(cur, m, zone, id);
      (t.(rows := t.rows[id := out]), Success(out))
  }

  /** DeleteMatch: removes the row if there is one; deleting a missing id is not an error. */
  function Delete(t: MatchTable, id: int): (r: MatchTable)
    ensures r.rows.Keys == t.rows.Keys - {id}
    ensures forall o :: o in r.rows ==> r.rows[o] == t.rows[o]
    ensures r.nextId == t.nextId
    ensures ValidTable(t) ==> ValidTable(r)
  {
    t.(rows := t.rows - {id})
  }

  // ---------------------------------------------------------------------------
  // Lemmas
  // ---------------------------------------------------------------------------

  /** A date without a time is read at midnight. */
  lemma ParseLocalISOMidnight(dateRaw: String, zone: Zone)
    requires dateRaw != ""
    ensures ParseLocalISO(dateRaw, "", zone) == ParseLocalISO(dateRaw, Midnight, zone)
  {
  }

  /** Create keeps an explicit start time and derives none from an empty date and time. */
  lemma CreateStartRules(m: Match, zone: Zone)
    ensures m.startIso.Some? ==> CreateStart(m, zone) == m.startIso
    ensures m.dateRaw == "" && m.timeRaw == "" ==> CreateStart(m, zone) == m.startIso
    ensures m.endIso.Some? || m.dateRaw == "" || m.endTimeRaw == "" ==> CreateEnd(m, zone) == m.endIso
  {
  }

  /**
   * Update never clears a text column: a stored value survives unless the request
   * supplies a non-empty replacement.
   */
  lemma UpdateNeverClears(t: MatchTable, id: int, m: Match, zone: Zone, f: TextField)
    requires id in t.rows && ColumnText(t.rows[id], f).Some?
    ensures var r := Update(t, id, m, zone).1;
      r.Success? && ColumnText(r.value, f).Some?
      && Sval(ColumnText(r.value, f)) == if FieldText(m, f) != "" then FieldText(m, f) else Sval(ColumnText(t.rows[id], f))
  {
  }

  /** A played match stays played: Update can set the flag but never reset it. */
  lemma UpdatePlayedMonotone(t: MatchTable, id: int, m: Match, zone: Zone)
    requires id in t.rows
    ensures var r := Update(t, id, m, zone).1;
      Bval(r.value.played) <==> Bval(t.rows[id].played) || m.played
  {
  }

  /** Each goal count is kept when the request carries 0, independently of the other. */
  lemma UpdateGoalsIndependent(t: MatchTable, id: int, m: Match, zone: Zone)
    requires id in t.rows
    ensures var r := Update(t, id, m, zone).1;
      && Ival(r.value.goalsFor) == (if m.goalsFor != 0 then m.goalsFor else Ival(t.rows[id].goalsFor))
      && Ival(r.value.goalsAgainst) == (if m.goalsAgainst != 0 then m.goalsAgainst else Ival(t.rows[id].goalsAgainst))
  {
  }

  /**
   * Update ignores the request's own start/end times and id; the stored times
   * change only when the request names a date or a (start/end) time.
   */
  lemma UpdateIgnoresRequestTimes(t: MatchTable, id: int, m: Match, zone: Zone, s: Option<String>, e: Option<String>, otherId: int)
    ensures Update(t, id, m, zone) == Update(t, id, m.(startIso := s, endIso := e, id := otherId), zone)
    ensures id in t.rows && m.dateRaw == "" && m.timeRaw == "" ==>
      Update(t, id, m, zone).1.value.startIso == t.rows[id].startIso
    ensures id in t.rows && m.dateRaw == "" && m.endTimeRaw == "" ==>
      Update(t, id, m, zone).1.value.endIso == t.rows[id].endIso
  {
  }

  /** The start time Update stores is the one the merged date and time give. */
  lemma UpdateRecomputesStart(t: MatchTable, id: int, m: Match, zone: Zone)
    requires id in t.rows && (m.dateRaw != "" || m.timeRaw != "")
    ensures var out := Update(t, id, m, zone).1.value;
      out.startIso == ParseLocalISO(Sval(out.dateRaw), Sval(out.timeRaw), zone)
  {
  }

  /**
   * The end time Update stores is the one the merged date and end time give,
   * whenever the request named a date or an end time.
   */
  lemma UpdateRecomputesEnd(t: MatchTable, id: int, m: Match, zone: Zone)
    requires id in t.rows && (m.dateRaw != "" || m.endTimeRaw != "")
    ensures var out := Update(t, id, m, zone).1.value;
      out.endIso == ParseLocalISO(Sval(out.dateRaw), Sval(out.endTimeRaw), zone)
  {
  }

  /** An update with nothing in it leaves the row as it was. */
  lemma UpdateBlankIsNoop(t: MatchTable, id: int, zone: Zone)
    requires ValidTable(t) && id in t.rows
    ensures Update(t, id, Blank, zone) == (t, Success(t.rows[id]))
  {
    var cur := t.rows[id];
    var out := Merge(cur, Blank, zone, id);
    assert out == cur;
    assert t.rows[id := cur] == t.rows;
  }

  /** Applying the same update twice is applying it once. */
  lemma UpdateIdempotent(t: MatchTable, id: int, m: Match, zone: Zone)
    requires id in t.rows
    ensures var once := Update(t, id, m, zone);
      Update(once.0, id, m, zone) == once
  {
    var once := Update(t, id, m, zone);
    var out := once.1.value;
    var twice := Merge(out, m, zone, id);
    assert forall f :: ColumnText(twice, f) == ColumnText(out, f);
    assert twice.dateRaw == out.dateRaw && twice.timeRaw == out.timeRaw && twice.endTimeRaw == out.endTimeRaw;
    assert twice.startIso == out.startIso && twice.endIso == out.endIso;
    assert twice == out;
    assert once.0.rows[id := twice] == once.0.rows;
  }

  /** Update of a missing id changes nothing, so a deleted match stays deleted. */
  lemma UpdateAfterDelete(t: MatchTable, id: int, m: Match, zone: Zone)
    ensures Update(Delete(t, id), id, m, zone) == (Delete(t, id), Failure("get: sql: no rows in result set"))
  {
  }

  /** A created match is found again under its new id, and nothing else changes. */
  lemma CreateThenGet(t: MatchTable, m: Match, zone: Zone)
    requires ValidTable(t)
    ensures var (t', row) := Create(t, m, zone);
      Get(t', row.id) == Success(row) && forall id :: id in t.rows ==> Get(t', id) == Get(t, id)
  {
  }
}

=== FILE: strconv.dfy ===
/**
 * Go's `strconv.ParseInt(s, 10, 64)`, as the importer's `atoi` and the match
 * routes' id parsing use it, together with `strconv.FormatInt(x, 10)` as its
 * inverse on the int64 range.
 *
 * The digit loop is ParseUint's: it checks each byte for a digit and then for
 * overflow, so an overflow stops the scan before any later non-digit is seen.
 */
module Strconv {

  import opened Wrappers
  import opened Text

  const MaxUint64: int := 0xFFFF_FFFF_FFFF_FFFF
  const MaxInt64: int := 0x7FFF_FFFF_FFFF_FFFF
  const MinInt64: int := -0x8000_0000_0000_0000

  /** The smallest `n` with `n * 10 > MaxUint64` (ParseUint's `cutoff` for base 10). */
  const Cutoff10: int := MaxUint64 / 10 + 1

  datatype NumError = ErrSyntax | ErrRange

  /** A Go `(value, err)` pair. */
  datatype Parsed = Parsed(value: int, err: Option<NumError>)

  function DigitOf(c: char): (d: int)
    requires IsDigit(c)
    ensures 0 <= d < 10
  {
    c as int - '0' as int
  }

  predicate AllDigits(s: String) {
    forall i :: 0 <= i < |s| ==> IsDigit(s[i])
  }

  /** The number the digits `s` spell after the digits already read gave `n`. */
  function Acc(s: String, n: int): int
    requires AllDigits(s)
  {
    if s == [] then n else Acc(s[1..], n * 10 + DigitOf(s[0]))
  }

  /** ParseUint's loop for base 10 and 64 bits, with `n` the value read so far. */
  function ScanDigits(s: String, n: int): (r: Parsed)
    requires 0 <= n <= MaxUint64
    ensures r.err == None ==> 0 <= r.value <= MaxUint64
    ensures r.err == Some(ErrRange) ==> r.value == MaxUint64
    ensures r.err == Some(ErrSyntax) ==> r.value == 0
  {
    if s == [] then Parsed(n, None)
    else if !IsDigit(s[0]) then Parsed(0, Some(ErrSyntax))
    else if n >= Cutoff10 then Parsed(MaxUint64, Some(ErrRange))
    else
      var n1 := n * 10 + DigitOf(s[0]);
      if n1 > MaxUint64 then Parsed(MaxUint64, Some(ErrRange))
      else ScanDigits(s[1..], n1)
  }

  /** `strconv.ParseUint(s, 10, 64)`. */
  function ParseUint(s: String): (r: Parsed)
    ensures r.err == None ==> 0 <= r.value <= MaxUint64
    ensures r.err == Some(ErrRange) ==> r.value == MaxUint64
    ensures r.err == Some(ErrSyntax) ==> r.value == 0
  {
    if s == [] then Parsed(0, Some(ErrSyntax)) else ScanDigits(s, 0)
  }

  /** The text after an optional leading '+' or '-'. */
  function Unsigned(s: String): String {
    if s != [] && (s[0] == '+' || s[0] == '-') then s[1..] else s
  }

  predicate Negative(s: String) {
    s != [] && s[0] == '-'
  }

  /** An optional sign followed by one or more decimal digits. */
  predicate WellFormed(s: String) {
    Unsigned(s) != [] && AllDigits(Unsigned(s))
  }

  /** The mathematical value of a well-formed decimal. */
  function Value(s: String): int
    requires WellFormed(s)
  {
    if Negative(s) then -Acc(Unsigned(s), 0) else Acc(Unsigned(s), 0)
  }

  function Clamp(x: int): (r: int)
    ensures MinInt64 <= r <= MaxInt64
    ensures MinInt64 <= x <= MaxInt64 ==> r == x
  {
    if x > MaxInt64 then MaxInt64 else if x < MinInt64 then MinInt64 else x
  }

  /**
   * `strconv.ParseInt(s, 10, 64)`: a well-formed decimal gives its value clamped
   * to int64 (with a range error when clamping was needed); anything else is an
   * error, and a syntax error comes with 0.
   */
  function ParseInt(s: String): (r: Parsed)
    ensures MinInt64 <= r.value <= MaxInt64
    ensures r.err == Some(ErrSyntax) ==> r.value == 0
    ensures WellFormed(s) ==>
      && r.value == Clamp(Value(s))
      && (r.err == None <==> MinInt64 <= Value(s) <= MaxInt64)
      && r.err != Some(ErrSyntax)
    ensures !WellFormed(s) ==> r.err.Some?
  {
    if s == [] then Parsed(0, Some(ErrSyntax))
    else
      var neg := Negative(s);
      var body := Unsigned(s);
      var u := ParseUint(body);
      ParseUintSpec(body);
      match u.err
      case Some(ErrSyntax) => Parsed(0, Some(ErrSyntax))
      case _ =>
        if !neg && u.value >= MaxInt64 + 1 then Parsed(MaxInt64, Some(ErrRange))
        else if neg && u.value > MaxInt64 + 1 then Parsed(MinInt64, Some(ErrRange))
        else Parsed(if neg then -u.value else u.value, None)
  }

  /** The decimal digits of `k`, most significant first, without leading zeros. */
  function Decimal(k: nat): (s: String)
    ensures s != [] && AllDigits(s)
  {
    var d := ['0', '1', '2', '3', '4', '5', '6', '7', '8', '9'][k % 10];
    if k < 10 then [d] else Decimal(k / 10) + [d]
  }

  /** `strconv.FormatInt(x, 10)`. */
  function FormatInt(x: int): (s: String)
    ensures WellFormed(s)
    ensures Negative(s) <==> x < 0
  {
    if x < 0 then "-" + Decimal(-x) else Decimal(x)
  }

  // ---------------------------------------------------------------------------
  // Lemmas
  // ---------------------------------------------------------------------------

  lemma {:induction false} AccAtLeast(s: String, n: int)
    requires AllDigits(s) && n >= 0
    ensures Acc(s, n) >= n
    ensures s != [] ==> Acc(s, n) >= n * 10
  {
    if s != [] {
      AccAtLeast(s[1..], n * 10 + DigitOf(s[0]));
    }
  }

  /** On digits, the scan yields the accumulated value when it fits in 64 bits and a range error otherwise. */
  lemma {:induction false} ScanDigitsOfDigits(s: String, n: int)
    requires AllDigits(s) && 0 <= n <= MaxUint64
    ensures ScanDigits(s, n) ==
      (if Acc(s, n) <= MaxUint64 then Parsed(Acc(s, n), None) else Parsed(MaxUint64, Some(ErrRange)))
  {
    if s != [] {
      var n1 := n * 10 + DigitOf(s[0]);
      AccAtLeast(s[1..], n1);
      if n < Cutoff10 && n1 <= MaxUint64 {
        ScanDigitsOfDigits(s[1..], n1);
      }
    }
  }

  /** A non-digit before any overflow makes the scan a syntax error. */
  lemma {:induction false} ScanDigitsNotDigits(s: String, n: int)
    requires !AllDigits(s) && 0 <= n <= MaxUint64
    ensures ScanDigits(s, n).err.Some?
  {
    if IsDigit(s[0]) {
      var n1 := n * 10 + DigitOf(s[0]);
      if n < Cutoff10 && n1 <= MaxUint64 {
        assert !AllDigits(s[1..]) by {
          var i :| 0 <= i < |s| && !IsDigit(s[i]);
          assert s[1..][i - 1] == s[i];
        }
        ScanDigitsNotDigits(s[1..], n1);
      }
    }
  }

  lemma ParseUintSpec(s: String)
    ensures s != [] && AllDigits(s) ==>
      ParseUint(s) == (if Acc(s, 0) <= MaxUint64 then Parsed(Acc(s, 0), None) else Parsed(MaxUint64, Some(ErrRange)))
    ensures !(s != [] && AllDigits(s)) ==> ParseUint(s).err.Some?
  {
    if s != [] {
      if AllDigits(s) {
        ScanDigitsOfDigits(s, 0);
      } else {
        ScanDigitsNotDigits(s, 0);
      }
    }
  }

  lemma {:induction false} AccAppend(a: String, c: char, n: int)
    requires AllDigits(a) && IsDigit(c)
    ensures AllDigits(a + [c])
    ensures Acc(a + [c], n) == Acc(a, n) * 10 + DigitOf(c)
  {
    if a != [] {
      assert (a + [c])[1..] == a[1..] + [c];
      AccAppend(a[1..], c, n * 10 + DigitOf(a[0]));
    }
  }

  lemma {:induction false} AccDecimal(k: nat)
    ensures Acc(Decimal(k), 0) == k
  {
    var d := ['0', '1', '2', '3', '4', '5', '6', '7', '8', '9'][k % 10];
    assert DigitOf(d) == k % 10;
    if k >= 10 {
      AccDecimal(k / 10);
      AccAppend(Decimal(k / 10), d, 0);
    }
  }

  /** ParseInt undoes FormatInt on the whole int64 range. */
  lemma ParseFormat(x: int)
    requires MinInt64 <= x <= MaxInt64
    ensures ParseInt(FormatInt(x)) == Parsed(x, None)
  {
    var s := FormatInt(x);
    if x < 0 {
      assert Unsigned(s) == Decimal(-x);
      AccDecimal(-x);
    } else {
      AccDecimal(x);
    }
  }

  /** Once the digits read so far overflow, nothing after them is examined. */
  lemma {:induction false} ScanDigitsOverflow(a: String, b: String, n: int)
    requires AllDigits(a) && 0 <= n <= MaxUint64 && Acc(a, n) > MaxUint64
    ensures ScanDigits(a + b, n) == Parsed(MaxUint64, Some(ErrRange))
  {
    assert a != [];
    var n1 := n * 10 + DigitOf(a[0]);
    if n < Cutoff10 && n1 <= MaxUint64 {
      assert (a + b)[1..] == a[1..] + b;
      ScanDigitsOverflow(a[1..], b, n1);
    }
  }

  /**
   * A run of digits too large for 64 bits parses as MaxInt64 with a range error
   * whatever text follows it: "99999999999999999999x" is not a syntax error.
   */
  lemma OverflowHidesTrailingText(a: String, b: String)
    requires AllDigits(a) && Acc(a, 0) > MaxUint64
    ensures ParseInt(a + b) == Parsed(MaxInt64, Some(ErrRange))
  {
    ScanDigitsOverflow(a, b, 0);
    assert (a + b)[0] == a[0];
  }
}

=== FILE: text.dfy ===
/**
 * The parts of Go's `strings` and `unicode` packages that the handlers and the
 * importer rely on: TrimSpace, ToLower, EqualFold, Split, SplitN(s, sep, 2),
 * Count, Join and the byte length `len(s)` of a UTF-8 string.
 *
 * Letters, case and white space are modelled exactly on Latin-1 (U+0000..U+00FF,
 * which holds the Swedish å/ä/ö and Å/Ä/Ö); every character above U+00FF is
 * treated as a non-letter without case. White space is Go's full `unicode.IsSpace`.
 */
module Text {

  import opened Wrappers

  type String = seq<char>

  /** `unicode.IsSpace`: Latin-1 spaces plus the White_Space characters above U+00FF. */
  predicate IsSpace(c: char) {
    || c == ' ' || c == '\t' || c == '\n' || c == '\U{B}' || c == '\U{C}' || c == '\r'
    || c == '\U{85}' || c == '\U{A0}' || c == '\U{1680}'
    || ('\U{2000}' <= c <= '\U{200A}')
    || c == '\U{2028}' || c == '\U{2029}' || c == '\U{202F}' || c == '\U{205F}' || c == '\U{3000}'
  }

  /** `unicode.IsLetter` restricted to Latin-1. */
  predicate IsLetter(c: char) {
    || ('a' <= c <= 'z') || ('A' <= c <= 'Z')
    || c == '\U{AA}' || c == '\U{B5}' || c == '\U{BA}'
    || ('\U{C0}' <= c <= '\U{D6}') || ('\U{D8}' <= c <= '\U{F6}') || ('\U{F8}' <= c <= '\U{FF}')
  }

  /** `unicode.IsDigit` restricted to Latin-1. */
  predicate IsDigit(c: char) {
    '0' <= c <= '9'
  }

  /** Upper-case letters of Latin-1: A-Z and À-Þ except the multiplication sign. */
  predicate IsUpper(c: char) {
    ('A' <= c <= 'Z') || ('\U{C0}' <= c <= '\U{DE}' && c != '\U{D7}')
  }

  /** `unicode.ToLower` on Latin-1: upper-case letters move down by 0x20. */
  function LowerChar(c: char): (d: char)
    ensures IsUpper(c) ==> d as int == c as int + 32 && !IsUpper(d)
    ensures !IsUpper(c) ==> d == c
  {
    if IsUpper(c) then (c as int + 32) as char else c
  }

  predicate AllSpace(s: String) {
    forall i :: 0 <= i < |s| ==> IsSpace(s[i])
  }

  /** No white space at either end. */
  predicate Trimmed(s: String) {
    s == [] || (!IsSpace(s[0]) && !IsSpace(s[|s| - 1]))
  }

  /** `strings.TrimLeft(s, space)`: drops the leading white space. */
  function TrimLeft(s: String): (r: String)
    ensures |r| <= |s| && r == s[|s| - |r|..]
    ensures forall i :: 0 <= i < |s| - |r| ==> IsSpace(s[i])
    ensures r == [] || !IsSpace(r[0])
  {
    if s != [] && IsSpace(s[0]) then
      var r := TrimLeft(s[1..]);
      assert s[1..][|s[1..]| - |r|..] == s[|s| - |r|..];
      r
    else s
  }

  /** `strings.TrimRight(s, space)`: drops the trailing white space. */
  function TrimRight(s: String): (r: String)
    ensures |r| <= |s| && r == s[..|r|]
    ensures forall i :: |r| <= i < |s| ==> IsSpace(s[i])
    ensures r == [] || !IsSpace(r[|r| - 1])
  {
    if s != [] && IsSpace(s[|s| - 1]) then
      var r := TrimRight(s[..|s| - 1]);
      assert s[..|s| - 1][..|r|] == s[..|r|];
      r
    else s
  }

  /** `strings.TrimSpace`. */
  function TrimSpace(s: String): (r: String)
    ensures Trimmed(r)
    ensures |r| <= |s|
    ensures r == [] <==> AllSpace(s)
  {
    TrimEmptyIffAllSpace(s);
    TrimRight(TrimLeft(s))
  }


  /** `strings.ToLower`. */
  function ToLower(s: String): (r: String)
    ensures |r| == |s|
    ensures forall i :: 0 <= i < |s| ==> r[i] == LowerChar(s[i])
  {
    seq(|s|, i requires 0 <= i < |s| => LowerChar(s[i]))
  }

  /** `strings.EqualFold` on Latin-1: equal after lower-casing. */
  predicate EqualFold(a: String, b: String) {
    ToLower(a) == ToLower(b)
  }

  /** Index of the first `c` in `s`, or `|s|` when there is none (`strings.IndexByte`). */
  function IndexOf(s: String, c: char): (i: nat)
    ensures i <= |s|
    ensures i < |s| ==> s[i] == c
    ensures c !in s[..i]
    ensures i == |s| <==> c !in s
  {
    if s == [] then 0 else if s[0] == c then 0 else 1 + IndexOf(s[1..], c)
  }

  /**
   * `strings.SplitN(s, sep, 2)`: `None` stands for the one-element result (no `sep`
   * in `s`), `Some((before, after))` for the split at the first `sep`.
   */
  function SplitFirst(s: String, sep: char): (r: Option<(String, String)>)
    ensures r.None? <==> sep !in s
    ensures r.Some? ==> s == r.value.0 + [sep] + r.value.1 && sep !in r.value.0
  {
    var i := IndexOf(s, sep);
    if i == |s| then None else Some((s[..i], s[i + 1..]))
  }

  /** `strings.Split(s, sep)` for a one-character separator; `Split("", sep) == [""]`. */
  function Split(s: String, sep: char): (parts: seq<String>)
    ensures |parts| >= 1
    ensures forall i :: 0 <= i < |parts| ==> sep !in parts[i]
    decreases |s|
  {
    match SplitFirst(s, sep)
    case None => [s]
    case Some((a, b)) => [a] + Split(b, sep)
  }

  /** `strings.Join(parts, sep)` for a one-character separator. */
  function Join(parts: seq<String>, sep: char): String {
    if |parts| == 0 then []
    else if |parts| == 1 then parts[0]
    else parts[0] + [sep] + Join(parts[1..], sep)
  }

  /** `strings.Join(cells, "")`. */
  function Concat(cells: seq<String>): String {
    if cells == [] then [] else cells[0] + Concat(cells[1..])
  }

  /** `strings.Contains(s, sub)`: `sub` occurs in `s` at some position. */
  predicate ContainsStr(s: String, sub: String) {
    exists i | 0 <= i <= |s| - |sub| :: OccursAt(s, sub, i)
  }

  /** `sub` occurs in `s` starting at index `i`. */
  predicate OccursAt(s: String, sub: String, i: int) {
    0 <= i <= |s| - |sub| && s[i..i + |sub|] == sub
  }

  /** `strings.Count(s, string(c))`: the number of occurrences of `c`. */
  function Count(s: String, c: char): (n: nat)
    ensures n == multiset(s)[c]
  {
    if s == [] then 0
    else
      assert s == [s[0]] + s[1..];
      (if s[0] == c then 1 else 0) + Count(s[1..], c)
  }

  /** Number of bytes the UTF-8 encoding of `c` takes. */
  function Utf8Width(c: char): nat {
    if c as int < 0x80 then 1 else if c as int < 0x800 then 2 else if c as int < 0x10000 then 3 else 4
  }

  /** Go's `len(s)` on a string: the length of its UTF-8 encoding in bytes. */
  function Utf8Len(s: String): (n: nat)
    ensures n >= |s|
    ensures (forall i :: 0 <= i < |s| ==> s[i] as int < 0x80) ==> n == |s|
  {
    if s == [] then 0 else Utf8Width(s[0]) + Utf8Len(s[1..])
  }

  // ---------------------------------------------------------------------------
  // Lemmas
  // ---------------------------------------------------------------------------

  /** TrimSpace removes exactly the white-space margins around a trimmed core. */
  lemma {:induction false} TrimSpaceOfCore(pre: String, core: String, post: String)
    requires AllSpace(pre) && AllSpace(post) && Trimmed(core)
    ensures TrimSpace(pre + core + post) == core
  {
    var s := pre + core + post;
    if core == [] {
      AllSpaceAppend(pre, post);
      assert s == pre + post;
      TrimLeftAllSpace(s);
    } else {
      assert s == pre + (core + post);
      TrimLeftOfSpaces(pre, core + post);
      TrimRightOfSpaces(core, post);
    }
  }

  /** Trimming both ends leaves nothing exactly when the text is all white space. */
  lemma TrimEmptyIffAllSpace(s: String)
    ensures TrimRight(TrimLeft(s)) == [] <==> AllSpace(s)
  {
    var l := TrimLeft(s);
    var cut := |s| - |l|;
    if l != [] {
      assert l[0] == s[cut];
      assert !IsSpace(s[cut]);
    }
    if TrimRight(l) == [] {
      assert l == [];
    }
  }

  lemma AllSpaceAppend(a: String, b: String)
    requires AllSpace(a) && AllSpace(b)
    ensures AllSpace(a + b)
  {
    assert forall i :: 0 <= i < |a + b| ==> (a + b)[i] == if i < |a| then a[i] else b[i - |a|];
  }

  lemma {:induction false} TrimLeftAllSpace(s: String)
    requires AllSpace(s)
    ensures TrimLeft(s) == []
  {
    if s != [] {
      TrimLeftAllSpace(s[1..]);
    }
  }

  lemma {:induction false} TrimLeftOfSpaces(pre: String, rest: String)
    requires AllSpace(pre)
    requires rest == [] || !IsSpace(rest[0])
    ensures TrimLeft(pre + rest) == rest
  {
    if pre == [] {
      assert pre + rest == rest;
    } else {
      assert (pre + rest)[1..] == pre[1..] + rest;
      TrimLeftOfSpaces(pre[1..], rest);
    }
  }

  lemma {:induction false} TrimRightOfSpaces(core: String, post: String)
    requires AllSpace(post)
    requires core != [] && !IsSpace(core[|core| - 1])
    ensures TrimRight(core + post) == core
  {
    if post == [] {
      assert core + post == core;
    } else {
      var s := core + post;
      assert s[..|s| - 1] == core + post[..|post| - 1];
      TrimRightOfSpaces(core, post[..|post| - 1]);
    }
  }

  /** Trimming twice is trimming once. */
  lemma TrimSpaceIdempotent(s: String)
    ensures TrimSpace(TrimSpace(s)) == TrimSpace(s)
  {
    var t := TrimSpace(s);
    assert [] + t + [] == t;
    TrimSpaceOfCore([], t, []);
  }

  /** Lower-casing twice is lower-casing once. */
  lemma ToLowerIdempotent(s: String)
    ensures ToLower(ToLower(s)) == ToLower(s)
  {
  }

  /** Lower-casing does not turn a space into a non-space or back. */
  lemma LowerKeepsSpace(c: char)
    ensures IsSpace(LowerChar(c)) == IsSpace(c)
  {
  }

  lemma {:induction false} TrimLeftToLower(s: String)
    ensures TrimLeft(ToLower(s)) == ToLower(TrimLeft(s))
  {
    if s != [] {
      LowerKeepsSpace(s[0]);
      assert ToLower(s)[1..] == ToLower(s[1..]);
      TrimLeftToLower(s[1..]);
    }
  }

  lemma {:induction false} TrimRightToLower(s: String)
    ensures TrimRight(ToLower(s)) == ToLower(TrimRight(s))
  {
    if s != [] {
      LowerKeepsSpace(s[|s| - 1]);
      assert ToLower(s)[..|s| - 1] == ToLower(s[..|s| - 1]);
      TrimRightToLower(s[..|s| - 1]);
    }
  }

  /**
   * The two normalisation orders used in the handlers agree: register and login
   * lower-case then trim, `isAdminEmail` and the header normaliser trim then lower-case.
   */
  lemma TrimLowerCommute(s: String)
    ensures ToLower(TrimSpace(s)) == TrimSpace(ToLower(s))
  {
    TrimLeftToLower(s);
    TrimRightToLower(TrimLeft(s));
  }

  /** A joined row of cells is blank exactly when every cell is blank. */
  lemma {:induction false} ConcatAllSpace(cells: seq<String>)
    ensures AllSpace(Concat(cells)) <==> forall i :: 0 <= i < |cells| ==> AllSpace(cells[i])
  {
    if cells != [] {
      ConcatAllSpace(cells[1..]);
      var c := Concat(cells);
      assert c == cells[0] + Concat(cells[1..]);
      if AllSpace(c) {
        forall i | 0 <= i < |cells|
          ensures AllSpace(cells[i])
        {
          if i == 0 {
            assert forall k :: 0 <= k < |cells[0]| ==> c[k] == cells[0][k];
          } else {
            assert forall k :: 0 <= k < |Concat(cells[1..])| ==> c[|cells[0]| + k] == Concat(cells[1..])[k];
            assert cells[i] == cells[1..][i - 1];
          }
        }
      }
      if forall i :: 0 <= i < |cells| ==> AllSpace(cells[i]) {
        assert AllSpace(cells[0]);
        assert forall i :: 0 <= i < |cells| - 1 ==> AllSpace(cells[1..][i]) by {
          forall i | 0 <= i < |cells| - 1 ensures AllSpace(cells[1..][i]) {
            assert cells[1..][i] == cells[i + 1];
          }
        }
      }
    }
  }

  /** Joining the pieces of a split restores the string. */
  lemma {:induction false} JoinSplit(s: String, sep: char)
    ensures Join(Split(s, sep), sep) == s
    decreases |s|
  {
    match SplitFirst(s, sep)
    case None =>
    case Some((a, b)) =>
      JoinSplit(b, sep);
      var parts := Split(s, sep);
      assert parts == [a] + Split(b, sep);
      assert parts[1..] == Split(b, sep);
  }

  /** Splitting a join of separator-free pieces gives the pieces back. */
  lemma {:induction false} SplitJoin(parts: seq<String>, sep: char)
    requires |parts| >= 1
    requires forall i :: 0 <= i < |parts| ==> sep !in parts[i]
    ensures Split(Join(parts, sep), sep) == parts
  {
    if |parts| == 1 {
      assert sep !in parts[0];
    } else {
      var rest := Join(parts[1..], sep);
      assert sep !in parts[0];
      SplitCons(parts[0], sep, rest);
      SplitJoin(parts[1..], sep);
      assert parts == [parts[0]] + parts[1..];
    }
  }

  lemma SplitCons(a: String, sep: char, rest: String)
    requires sep !in a
    ensures Split(a + [sep] + rest, sep) == [a] + Split(rest, sep)
  {
    var s := a + [sep] + rest;
    IndexOfPrefix(a, sep, rest);
    assert s[..|a|] == a;
    assert s[|a| + 1..] == rest;
  }

  /** A character that is neither the separator nor in any part is not in their join. */
  lemma {:induction false} JoinAvoids(parts: seq<String>, sep: char, c: char)
    requires c != sep && forall i :: 0 <= i < |parts| ==> c !in parts[i]
    ensures c !in Join(parts, sep)
  {
    if |parts| >= 2 {
      assert forall i :: 0 <= i < |parts[1..]| ==> parts[1..][i] == parts[i + 1];
      JoinAvoids(parts[1..], sep, c);
    }
  }

  lemma {:induction false} IndexOfPrefix(a: String, sep: char, b: String)
    requires sep !in a
    ensures IndexOf(a + [sep] + b, sep) == |a|
  {
    if a != [] {
      assert (a + [sep] + b)[1..] == a[1..] + [sep] + b;
      IndexOfPrefix(a[1..], sep, b);
    }
  }
}

=== FILE: wrappers.dfy ===
/** Optional values (Go's nil-able pointers) and results (Go's `(value, error)` pairs). */
module Wrappers {

  /** A Go pointer that may be nil: `None` is nil, `Some(v)` points at `v`. */
  datatype Option<+T> = None | Some(value: T) {

    /** The pointee, or `default` when nil. */
    function GetOr(default: T): T {
      match this
      case Some(v) => v
      case None => default
    }
  }

  /** The outcome of a Go call returning `(T, error)`. */
  datatype Result<+T, +E> = Success(value: T) | Failure(error: E)
}
